=== FILE: README.md ===
# Software rasterizer and round scorer, modelled in Dafny

This project models two small pieces of integer logic from a Rust program.

The first is the set of rasterization primitives of `src/draw.rs`. They all
write into a caller-owned RGBA8 byte buffer:

- `draw_pixel` writes one pixel.
- `draw_line` is an integer Bresenham walk.
- `draw_circle` and `draw_filled_circle` share one midpoint-circle loop.
- `draw_filled_rectangle` is a nested range loop.
- `sort_points` sorts three points by y.
- `draw_uniform_cubic_b_spline` is modelled only through its control schedule.

The second is the scoring function `a` of `src/main.rs`. It splits a text
into lines, scores each line through a nine-entry table, panics on any other
line, and sums the scores as an `i32`.

The buffer is a `seq<Byte>` that each operation returns updated. A point
(glam's `IVec2`) is a pair of unbounded `int`s. Where the source relies on
i32 arithmetic not overflowing, a precondition keeps the model inside that
range. Where such a precondition asks for more than the source needs,
"Left out" says so.

Every loop is a method that mirrors the source. Each loop method also
returns what its loop visited: points, chords or joins. Its contract ties
that to a recursive definition of the loop (`LinePath`, `CirclePoints`,
`RectPoints`, `DiscChords` or `SplineJoins`). These definitions unroll the
same one-pass functions the loops call (`Step`, `MidStep`, `Octants`,
`PassChords`). The contract also ties the buffer to plotting the visited
pixels in order: `PlotAll`, or `PlotClipped` for the pixels that pass
`draw_line`'s canvas test. For the filled circle and the spline, those
pixels are the walks of the chords (`DiscPoints`) or of the joins
(`SplinePoints`). One method has no loop of its own in the source:
`DrawChords` stands for the four straight-line `draw_line` calls of one
pass of the filled circle, and returns only the buffer.

What the walks are is stated independently of those definitions, in lemmas:

- `LinePathShape`: where a line starts and ends, how it steps, and how many
  points it has.
- `CircleOffsets`: the outline is exactly the sign and swap images of each
  pass.
- `RectExact`: each point of the rectangle is drawn exactly once.
- `SplineJoinsMembers`: which samples the spline joins.

Files, one module each:

- `geometry.dfy` (`Geometry`): points, the i32 range, `Abs`, and `Mul` (the
  row product as repeated addition). It also has Rust's truncating `/`.
- `pixel.dfy` (`Pixel`): `draw_pixel`, colour packing, and plotting a
  sequence of points, with and without the canvas test.
- `line.dfy` (`Line`): `draw_line`.
- `circle.dfy` (`Circle`): `draw_circle` and `draw_filled_circle`.
- `rectangle.dfy` (`Rectangle`): `draw_filled_rectangle`.
- `sort.dfy` (`PointSort`): `sort_points`.
- `spline.dfy` (`Spline`): the control schedule of
  `draw_uniform_cubic_b_spline`.
- `score.dfy` (`Score`): `str::lines` and `a`.

## Model

| member | source | states |
|---|---|---|
| Geometry.TruncDiv | src/draw.rs:24 | Rust's `/` on i32 rounds toward zero: the remainder has the sign of the dividend and is smaller than the divisor |
| Geometry.MulIsProduct | src/draw.rs:4 | the repeated-addition row product equals `size.x * pos.y` |
| Geometry.MulMonotone | src/draw.rs:4 | with a non-negative width, the row product is non-negative and grows with the row |
| Pixel.Offset | src/draw.rs:4 | the byte offset `4 * (size.x * pos.y + pos.x)` of a pixel, with no comparison of x against the width (the row product is `Mul`) |
| Pixel.ColorBytes | src/draw.rs:7-10 | the four bytes `color >> 24`, `>> 16`, `>> 8` and `color`, each truncated to `u8`; there are always four |
| Pixel.ColorBytesRoundTrip | src/draw.rs:7-10 | the four bytes written (`color >> 24`, `>> 16`, `>> 8`, low byte) read back, most significant first, as the colour |
| Pixel.ColorBytesInjective | src/draw.rs:7-10 | different colours write different bytes |
| Pixel.DrawPixel | src/draw.rs:3-12 | when the span `offset .. offset + 4` lies in the buffer, it holds the colour's bytes and every other byte is unchanged; otherwise the buffer is unchanged; the length never changes |
| Pixel.DrawPixelWrapsRow | src/draw.rs:4-6 | no coordinate check: (x + width, y) is the same pixel as (x, y + 1) |
| Pixel.PlotAll | src/draw.rs:3-12 | `draw_pixel` on every point of a sequence, in order, with no coordinate check; the buffer length never changes |
| Pixel.PlotAllAppend | src/draw.rs:3-12 | plotting two runs of points one after the other is plotting their concatenation |
| Pixel.PlotAllPaints | src/draw.rs:3-12 | every plotted point whose span fits in the buffer ends up holding the colour, whatever was plotted after it |
| Pixel.PlotAllFrame | src/draw.rs:3-12 | a byte outside the span of every plotted point is left unchanged |
| Pixel.InCanvasOffsetFits | src/draw.rs:28-29 | for a canvas whose last offset fits in i32, an on-canvas point's offset fits in i32 and lies in `[0, 4 * width * height - 4]` |
| Pixel.Visible | src/draw.rs:28 | a point is kept exactly when it is in the walk and on the canvas |
| Pixel.VisibleAppend | src/draw.rs:28 | the canvas filter distributes over concatenation |
| Pixel.PlotClipped | src/draw.rs:28-30 | `draw_pixel` on the on-canvas points of a sequence, in order, skipping the others; the buffer length never changes |
| Pixel.PlotClippedAppend | src/draw.rs:27-30 | plotting the on-canvas points of two runs one after the other is the same as for their concatenation |
| Pixel.PlotClippedSnoc | src/draw.rs:28-30 | one more point is drawn by `draw_pixel` if it is on the canvas and skipped otherwise |
| Pixel.PlotClippedPaints | src/draw.rs:28-30 | every on-canvas point of the walk whose span fits ends up holding the colour |
| Pixel.PlotClippedFrame | src/draw.rs:28-30 | only on-canvas points reach the buffer: a byte outside every on-canvas point's span is unchanged |
| Line.SetupOf | src/draw.rs:18-24 | the distances `abs(end - start)`, the step directions (+1 only when start is strictly below end on that axis) and the initial err, half of dx or of -dy rounded toward zero |
| Line.Initial | src/draw.rs:15-24 | the loop starts at `start` with the initial err |
| Line.Step | src/draw.rs:36-45 | one pass after the end test: both tests read err as saved before either update; x steps when it exceeds -dx, y steps when it is below dy |
| Line.InitialReachable | src/draw.rs:15-24 | the starting state (x, y at `start`, err = the truncated half of dx or -dy) satisfies the loop invariant |
| Line.StepGuards | src/draw.rs:36-45 | short of `end`, an axis steps only while it has not reached `end`, the major axis always steps, and the new error term stays in the major axis's range |
| Line.StepKeepsReachable | src/draw.rs:36-45 | a pass short of `end` preserves the loop invariant |
| Line.StepInBox | src/draw.rs:36-45 | a pass stays between `start` and `end` on both axes, and an axis moves one further from `start` exactly when it steps |
| Line.StepKeepsErr | src/draw.rs:36-45 | a pass preserves `err == err0 + abs(y - start.y) * dx - abs(x - start.x) * dy` |
| Line.StepAdvances | src/draw.rs:36-45 | a pass advances the major axis by one towards `end`, moves x by 0 or sx and y by 0 or sy (at least one), and gets strictly closer to `end` |
| Line.XMajorStep | src/draw.rs:24-45 | with dx > dy, x steps on every pass, y steps only while short of end.y, and err stays in `[0, dx)` |
| Line.YMajorStep | src/draw.rs:24-45 | with dx <= dy, y steps on every pass, x steps only while short of end.x, and err stays in `(-dy, 0]` |
| Line.WalkEnds | src/draw.rs:27-46 | the walk from a reachable state starts at that state's point and ends exactly at `end` |
| Line.WalkUnitSteps | src/draw.rs:36-45 | consecutive points of the walk differ by 0 or sx in x and 0 or sy in y, and are never equal |
| Line.WalkInBox | src/draw.rs:27-46 | every point of the walk lies in the box spanned by `start` and `end` |
| Line.WalkMajorAdvances | src/draw.rs:27-46 | the walk has one point per position of the major axis, the i-th at offset i from the first |
| Line.MajorAdvancesCons | src/draw.rs:38-45 | putting the point one major step before the walk in front of it keeps one point per major-axis position |
| Line.Walk | src/draw.rs:27-45 | the points the loop visits from a reachable state: the current point, then the walk from the next state, and only `end` once the state is at `end` |
| Line.WalkHasShape | src/draw.rs:27-46 | the walk from a reachable state has every property above |
| Line.LinePath | src/draw.rs:14-47 | the walk draw_line takes from its initial state |
| Line.LinePathShape | src/draw.rs:14-47 | draw_line visits `start` first and ends exactly at `end` (so it terminates); it takes unit steps, stays in the endpoints' box, and visits max(dx, dy) + 1 points |
| Line.LinePathEnds | src/draw.rs:27-34 | both endpoints are visited |
| Line.DrawLine | src/draw.rs:14-47 | the loop visits exactly `LinePath(start, end)`, and the buffer is exactly what plotting its on-canvas points in order gives |
| Line.WalkNext | src/draw.rs:32-45 | one pass moves the current point from the rest of the walk to the points visited, and the next state is reachable and closer to `end` |
| Line.LinePainted | src/draw.rs:28-33 | an endpoint on the canvas whose span fits in the buffer ends up holding the colour |
| Line.HorizontalLineCovers | src/draw.rs:14-47 | a horizontal line visits every x between its endpoints, inclusive |
| Circle.MidStepKeeps | src/draw.rs:84-89 | the update preserves `err == x*x + y*y - r*r + 2*y + 2*(r - x)`, raises y by one and lowers x by at most one |
| Circle.PassesShape | src/draw.rs:54-90 | from a state with 0 <= y and x <= r keeping the invariant, the i-th pass has y advanced by i and y <= x <= r, and there are at most x - y + 1 passes |
| Circle.Passes | src/draw.rs:54-90 | the loop states at which the body runs: the current state while x >= y, then those after `MidStep` |
| Circle.Schedule | src/draw.rs:50-54 | the passes from (x, y, err) = (radius, 0, 0), shared by both circle routines (also src/draw.rs:94-97) |
| Circle.ScheduleShape | src/draw.rs:50-54 | the loop makes no pass for a negative radius, and 1 to radius + 1 passes otherwise; the i-th pass has y == i and i <= x <= radius |
| Circle.MidStep | src/draw.rs:84-89 | the update at the end of a pass: y up by one, err up by 1 + 2y, and x in by one (err up by 1 - 2x) when 2 * (err - x) + 1 > 0 |
| Circle.MidStepFits | src/draw.rs:84-89 | within the error band and a radius with 10 * radius + 7 in i32, every value a pass's update computes fits in i32, and the next state is within the band |
| Circle.PassesArithOk | src/draw.rs:54-90 | from a state within the band, no pass computes a value outside i32 |
| Circle.ScheduleArithOk | src/draw.rs:50-90 | for a radius with 10 * radius + 7 in i32, no pass of the loop computes a value outside i32 |
| Circle.Octants | src/draw.rs:99-106 | the eight points `pos + (±x, ±y)` and `pos + (±y, ±x)` a pass plots, in the source's order |
| Circle.OctantsAreImages | src/draw.rs:99-106 | the eight points of a pass are exactly the sign and swap images of (x, y) about `pos` |
| Circle.Outline | src/draw.rs:98-114 | the eight points of each pass, pass after pass |
| Circle.CirclePoints | src/draw.rs:93-115 | every point draw_circle plots, in order: the outline of its schedule |
| Circle.OutlineMembers | src/draw.rs:98-114 | the outline has eight points per pass, and a point is on it exactly when it is among some pass's eight |
| Circle.CircleOffsets | src/draw.rs:93-115 | draw_circle plots 8 points per pass, and a point is plotted exactly when it is a sign and swap image of some pass's (x, y) |
| Circle.CircleNear | src/draw.rs:93-115 | every plotted point is within `radius` of `pos` on each axis |
| Circle.CircleDegenerate | src/draw.rs:93-115 | radius 0 plots only `pos`, eight times; a negative radius plots nothing |
| Circle.OutlineNext | src/draw.rs:98-113 | one pass moves its eight points from the points still to plot to the points plotted |
| Circle.DrawCircle | src/draw.rs:93-115 | the loop plots exactly `CirclePoints(pos, radius)` in order with no coordinate check, and the buffer is what `draw_pixel` on each gives |
| Circle.PassChords | src/draw.rs:55-82 | the four `draw_line` calls of a pass, from `pos + (x, y)` to `pos + (-x, y)`, then `(y, x)` to `(-y, x)`, `(-x, -y)` to `(x, -y)` and `(-y, -x)` to `(y, -x)` |
| Circle.PassChordEnds | src/draw.rs:55-82 | the eight chord endpoints of a pass are exactly the eight points draw_circle plots on that pass |
| Circle.DiscChords | src/draw.rs:54-90 | the four chords of each pass, pass after pass |
| Circle.ChordPaths | src/draw.rs:55-82 | the walks draw_line takes along a run of chords, one after another |
| Circle.DiscPoints | src/draw.rs:49-91 | every point draw_filled_circle hands to draw_line's canvas test, in order |
| Circle.ChordPathsAppend | src/draw.rs:55-82 | the walks of two runs of chords, concatenated, are the walks of the concatenated runs |
| Circle.ChordPathIn | src/draw.rs:55-82 | every point of a chord's walk is among the walks of the chords it belongs to |
| Circle.ChordPathsMembers | src/draw.rs:55-82 | a point is visited by a run of chords exactly when it is on the walk of one of them |
| Circle.DiscChordsShape | src/draw.rs:54-82 | every chord is horizontal, its endpoints are mirrored about pos.x, and both lie within `radius` of `pos` |
| Circle.DiscChordsNear | src/draw.rs:54-82 | the same for the chords of any run of passes with 0 <= y <= x <= radius |
| Circle.PassChordsNear | src/draw.rs:55-82 | the same for the four chords of one such pass |
| Circle.DiscNear | src/draw.rs:49-91 | every point the filled circle's lines visit is within `radius` of `pos` on each axis |
| Circle.ChordInBox | src/draw.rs:55-82 | every point on the walk of a horizontal chord whose ends are within `radius` of `pos` is within `radius` of `pos` |
| Circle.PassChordsIn | src/draw.rs:54-82 | the chords of a pass are among the chords drawn |
| Circle.FilledCoversOutline | src/draw.rs:49-115 | every point draw_circle plots is visited by one of draw_filled_circle's lines |
| Circle.DiscRowsFilled | src/draw.rs:55-75 | on rows pos.y + y and pos.y - y of every pass, every x within x of pos.x is visited |
| Circle.DiscColumnsFilled | src/draw.rs:62-82 | on rows pos.y + x and pos.y - x of every pass, every x within y of pos.x is visited |
| Circle.PassRowsFilled | src/draw.rs:55-75 | the long spans of any pass of any run of passes are visited |
| Circle.PassColumnsFilled | src/draw.rs:62-82 | the short spans of any pass of any run of passes are visited |
| Circle.PassSpanFilled | src/draw.rs:55-82 | every x between the ends of a pass's chord is visited on the chord's row |
| Circle.PassChordsArithOk | src/draw.rs:55-82 | inside the i32 square around `pos`, no chord overflows draw_line's arithmetic |
| Circle.DrawChords | src/draw.rs:55-82 | draw_line on a run of chords in turn leaves the buffer as plotting the on-canvas points of their walks in order |
| Circle.DrawFilledCircle | src/draw.rs:49-91 | the loop draws exactly the chords of every pass, four per pass; the buffer is what plotting the on-canvas points of their walks gives |
| Circle.DiscNext | src/draw.rs:54-90 | one pass moves its four chords from the chords still to draw to the chords drawn |
| Circle.FilledPaintsOutline | src/draw.rs:49-115 | every on-canvas outline point whose span fits ends up holding the colour after draw_filled_circle |
| Rectangle.Column | src/draw.rs:125-127 | the points of the inner loop for one x, y running up from y0 |
| Rectangle.Columns | src/draw.rs:124-128 | the columns x0 .. x - 1 in order, each over the same y range |
| Rectangle.RectPoints | src/draw.rs:117-129 | everything draw_filled_rectangle plots, in order |
| Rectangle.ColumnShape | src/draw.rs:125-127 | the inner loop visits (x, y0), (x, y0 + 1), ..., (x, y1 - 1) |
| Rectangle.ColumnsLength | src/draw.rs:124-128 | w columns of height h visit w * h points |
| Rectangle.ColumnsMembers | src/draw.rs:124-128 | a point is visited exactly when it lies in the half-open x and y ranges |
| Rectangle.ColumnsDistinct | src/draw.rs:124-128 | no point is visited twice |
| Rectangle.RectExact | src/draw.rs:117-129 | an extent that is not positive on both axes draws nothing; otherwise `draw_pixel` is called exactly once per point of the rectangle and for no other point |
| Rectangle.ColumnFits | src/draw.rs:124-126 | proof helper for `DrawFilledRectangle`'s loop: when no point of the rectangle overflows, no point of a column does |
| Rectangle.FillColumn | src/draw.rs:125-127 | the inner loop plots exactly one column, with no coordinate check |
| Rectangle.DrawFilledRectangle | src/draw.rs:117-129 | the loop plots exactly the rectangle's points, column by column, with no coordinate check |
| PointSort.Order | src/draw.rs:168-176 | one compare-and-swap: the pair comes out ordered by y, holds the same two points, and is left as it was unless the first y is strictly larger |
| PointSort.SortPoints | src/draw.rs:166-178 | the result is ordered by non-decreasing y |
| PointSort.SortPointsPermutes | src/draw.rs:166-178 | the result is a permutation of the three inputs |
| PointSort.RankIsPermutation | src/draw.rs:166-178 | the stable ranks of three points are 0, 1 and 2 in some order |
| PointSort.SortPointsStable | src/draw.rs:168-176 | every input lands at its stable rank, so points of equal y keep their input order |
| Spline.WindowJoins | src/draw.rs:256-278 | the `draw_line` calls of one window: every sample t > 0 joined to sample t - 1, none for t = 0 |
| Spline.SplineJoins | src/draw.rs:239-248 | every `draw_line` call of the spline, window after window; none with fewer than four points |
| Spline.WindowsFrom | src/draw.rs:248-279 | the joins of windows w .. c - 1, window after window |
| Spline.WindowsFromShape | src/draw.rs:248-278 | windows w .. c - 1 make 31 joins each; the i-th joins samples i % 31 and i % 31 + 1 of window w + i / 31 |
| Spline.SplineJoinsShape | src/draw.rs:239-256 | fewer than four points make no join; otherwise there are 31 * (n - 3) joins, the i-th joining samples i % 31 and i % 31 + 1 of window i / 31 |
| Spline.SplineJoinsMembers | src/draw.rs:248-278 | a join is made exactly when n >= 4 and it links samples k and k + 1 < 32 of one window below n - 3 |
| Spline.NoCrossWindowJoin | src/draw.rs:275-278 | no line joins the last sample of a window to the first of the next |
| Spline.Segment | src/draw.rs:276 | the pixels draw_line visits for one join: the walk between the two samples' positions |
| Spline.SplinePoints | src/draw.rs:248-279 | the pixels a run of joins visits, join after join |
| Spline.SegmentIn | src/draw.rs:276 | every pixel of a join's line is among the pixels of the run it belongs to |
| Spline.SplineCoversSamples | src/draw.rs:248-279 | with at least four points, every sample of every window is a visited pixel |
| Spline.WindowFits | src/draw.rs:256-276 | proof helper for `DrawSpline`'s loop: the overflow bound of the whole schedule covers each window |
| Spline.SplinePointsAppend | src/draw.rs:276 | the pixels of two runs of joins, concatenated, are the pixels of the concatenated run |
| Spline.WindowNext | src/draw.rs:256-278 | one more sample adds exactly the join to the sample before it |
| Spline.DrawWindow | src/draw.rs:256-279 | the inner loop makes exactly the 31 joins of its window, leaves the buffer as drawing their lines, and leaves the last sample as the previous position |
| Spline.WindowsFromNext | src/draw.rs:248 | proof helper for `DrawSpline`'s loop: the outer loop's next window takes the next 31 joins off the remaining schedule |
| Spline.WindowsFromDone | src/draw.rs:248 | proof helper for `DrawSpline`'s loop: after the last window no join remains |
| Spline.SplinePlotsAppend | src/draw.rs:276 | drawing two runs of joins one after the other is drawing their concatenation |
| Spline.DrawSpline | src/draw.rs:237-281 | the routine makes exactly the scheduled joins, leaves the buffer as drawing their lines, and leaves it unchanged below four points |
| Score.Lines | src/main.rs:7 | `str::lines`: the pieces between `\n` breaks, a `\r` before a break dropped, and a final piece kept only when it is not empty |
| Score.LineScore | src/main.rs:8-18 | the match: the score of each of the nine rounds, and no score (the panicking arm) for any other line |
| Score.SumFrom | src/main.rs:19-20 | `sum::<i32>` over the mapped lines, in order: the first unrecognised line panics, and so does a running sum past i32 |
| Score.Score | src/main.rs:5-21 | `a`: the running sum of the scores of the lines of the input |
| Score.LineEnd | src/main.rs:7 | the first '\n' of the text, or its length when there is none |
| Score.LinesHaveNoBreaks | src/main.rs:7 | no line contains a '\n' |
| Score.LinesJoinRoundTrip | src/main.rs:7 | joining lines with '\n' and splitting again gives them back, when none holds '\n' or ends with '\r' and the last is not empty |
| Score.NoBreakLineEnd | src/main.rs:7 | proof helper for the `Lines` lemmas: in a text without '\n' the first line ends at the end of the text |
| Score.PrefixLineEnd | src/main.rs:7 | a prefix without '\n' shifts the first line break by its length |
| Score.LineEndAt | src/main.rs:7 | the first line break is at n when `s[n]` is '\n' and none comes before |
| Score.LinesAppend | src/main.rs:7 | the lines of `a + "\n" + b` are those of `a` then those of `b`, when `a` is not empty and ends with neither '\n' nor '\r' |
| Score.OneLine | src/main.rs:7 | a non-empty text without '\n' is one line, unchanged |
| Score.InputLines | src/main.rs:1-3 | the program's input is the three lines "A Y", "B X", "C Z" |
| Score.InputRounds | src/main.rs:10-17 | those rounds score 8, 1 and 6 |
| Score.ScoreOfInput | src/main.rs:29-32 | `a` on the program's input returns 15 |
| Score.TableIsPermutation | src/main.rs:8-18 | a line scores exactly when it is one of the nine rounds; they score 1 to 9, pairwise different, and every value in 1 to 9 is taken |
| Score.LineScoreIsRule | src/main.rs:9-17 | on every string the table equals (X=1, Y=2, Z=3) + 3 * ((mine - theirs + 1) mod 3), with A/B/C and X/Y/Z indexed 0 to 2, and rejects everything else |
| Score.TotalBounds | src/main.rs:9-17 | n recognised lines total between n and 9 n |
| Score.SumFromRecognised | src/main.rs:20 | on recognised lines the running i32 sum gives the plain total, or an overflow exactly when the total leaves i32 |
| Score.SumFromBadLine | src/main.rs:18 | a panic names a line of the input that is unrecognised and is preceded only by recognised lines |
| Score.SumFromOkRecognised | src/main.rs:8-20 | a returned sum means every line was recognised |
| Score.ScoreOk | src/main.rs:5-21 | `a` returns exactly when every line is recognised and the total fits in i32, and returns that total; a line panic names the first unrecognised line |
| Score.ScoreEmpty | src/main.rs:5-21 | the empty text scores 0 |
| Score.ScoreAppend | src/main.rs:5-21 | two valid inputs joined with '\n' score the sum of their scores, when the first is not empty and does not end with '\n', and the sum fits in i32 |
| Score.LastLine | src/main.rs:7-18 | a text whose lines are all recognised and that does not end in '\n' does not end in '\r' either |
| Score.TotalAppend | src/main.rs:20 | the total of two runs of recognised lines is the sum of their totals |
| Score.ScoreRejectsEmptyLine | src/main.rs:18 | an interior empty line panics with the empty line |
| Score.ScoreRejectsMalformed | src/main.rs:18 | a doubled space, a trailing space and lower case each panic with the offending line |

## Left out

- `draw_filled_triangle` (src/draw.rs:131-164) is left out because it works on `f32` slopes and float-to-int casts, and equal vertex heights divide by zero. Only its helper `sort_points` is modelled.
- The position of a B-spline sample (src/draw.rs:244, 258-274) is `f32` polynomial arithmetic and is not modelled. It enters `Spline` as an arbitrary function `sample(window, k)`, so the cast `x as i32` is part of that function too.
- `draw_cat` and `draw` (src/draw.rs:180-235, 283-322) are fixed demo sequences of the primitives above and add no logic of their own.
- `main` (src/main.rs:23-27) only prints and is not modelled.
- Rust's i32 overflow panics inside the rasterizers are excluded by preconditions rather than modelled:
  - `OffsetFits` covers `draw_pixel`'s offset arithmetic, including the offset -4, for which `offset as usize + 4` overflows.
  - `LineArithOk` covers `draw_line`.
  - `CircleFits` and `DiscFits` cover the circles. Both include `RadiusFits`, under which the midpoint loop's own update stays in i32 (`ScheduleArithOk`).
  - `RectFits` covers the rectangle.
  - `SamplesFit` covers the spline's lines.
  - `CanvasFits` covers the offsets of the pixels that pass `draw_line`'s canvas test.
- Circle.DrawCircle: `RadiusFits` asks for 10 * radius + 7 within i32, so radius at most 214748364. The proof bounds the error term by a linear band (`ErrBand`: from -x to radius + 2y) rather than by the circle itself. In the source err stays between about -radius and radius. Only the lower end of `2 * (err - x)`, near -4 * radius, limits the radius, at about 2^29. The band bounds that lower end tightly and is loose only at its upper end. Radii between these two bounds are drawn by the source but excluded here.
- Circle.DrawFilledCircle: the same radius bound, through `DiscFits`, with the same gap up to a radius near 2^29.
- Line.DrawLine: `CanvasFits` asks that every pixel of the canvas have an i32 offset, which caps the canvas at 2^29 pixels. The source computes offsets only for the on-canvas points its walk visits, so a line in the top rows of a larger canvas is drawn by the source but excluded here. The `PlotClipped` lemmas ask for the same bound.
- Circle.DrawChords: the same `CanvasFits` cap as `Line.DrawLine`, for the chords' walks.
- Circle.DrawFilledCircle: the same `CanvasFits` cap, for the walks of the disc's chords.
- Spline.DrawWindow: the same `CanvasFits` cap, for the walks of one window's joins.
- Spline.DrawSpline: the same `CanvasFits` cap, for the walks of all joins.
- Line.DrawLine: `LineArithOk` asks for dx + dy within i32. That is a little more than the loop's intermediate values strictly need, so some lines near the i32 limits are not covered.
- Line.DrawLine, Circle.DrawFilledCircle, Spline.DrawSpline: the buffer is stated through `PlotClipped` (the on-canvas points, plotted in order). It is not stated as a separate per-byte formula. `PlotClippedPaints` and `PlotClippedFrame` give the per-byte view.
- Score.Lines models `str::lines` as current Rust defines it. A line ends at '\n', and a '\r' directly before that '\n' is dropped. A final piece without '\n' is a line only when it is not empty, and it keeps a trailing '\r'. A description that strips a '\r' from every line would differ on one input only: a last line ending in '\r' with no '\n' after it. Everywhere else the two agree.
- Score.LineScore compares a line with each literal of the match character by character: length 3, then the three characters. This is the same test as string equality.
- Score.SumFrom models `sum::<i32>()` as a debug build does: a running sum past i32 panics (`Overflow`). A release build would wrap instead, and that is not modelled. The map is lazy, so lines are scored and added one at a time. The first event in input order, an unrecognised line or an overflowing sum, decides the outcome.

=== FILE: circle.dfy ===
/** draw_circle and draw_filled_circle.

    Both run the same midpoint loop over (x, y, err), starting at
    (radius, 0, 0) and running while x >= y. The outline plots the eight
    images of (x, y) under sign changes and the swap of x and y; the disc
    draws four horizontal chords whose endpoints are those same eight points.
 */
module Circle {
  import opened Geometry
  import opened Pixel
  import opened Line

  /** The loop variables shared by both routines. */
  datatype Mid = Mid(x: int, y: int, err: int)

  /** The update at the end of every pass: y moves one step, and x moves in
      by one when the error term says (x, y + 1) lies outside the circle. */
  function MidStep(s: Mid): Mid {
    var y := s.y + 1;
    var err := s.err + 1 + 2 * y;
    if 2 * (err - s.x) + 1 > 0 then Mid(s.x - 1, y, err + 1 - 2 * (s.x - 1))
    else Mid(s.x, y, err)
  }

  /** The states at which the loop body runs, from `s` on. */
  function Passes(s: Mid): seq<Mid>
    decreases s.x - s.y
  {
    if s.x < s.y then [] else [s] + Passes(MidStep(s))
  }

  /** The passes of a circle of the given radius. */
  function Schedule(radius: int): seq<Mid> {
    Passes(Mid(radius, 0, 0))
  }

  /** The error term ties (x, y) to the circle of radius r. */
  ghost predicate MidInv(r: int, s: Mid) {
    s.err == s.x * s.x + s.y * s.y - r * r + 2 * s.y + 2 * (r - s.x)
  }

  /** Every pass keeps the error invariant, raises y by one and lowers x by
      at most one. */
  lemma MidStepKeeps(r: int, s: Mid)
    requires MidInv(r, s)
    ensures MidInv(r, MidStep(s))
    ensures MidStep(s).y == s.y + 1
    ensures MidStep(s).x == s.x || MidStep(s).x == s.x - 1
  {
    assert (s.y + 1) * (s.y + 1) == s.y * s.y + 2 * s.y + 1;
    assert (s.x - 1) * (s.x - 1) == s.x * s.x - 2 * s.x + 1;
  }

  /** From a state with 0 <= y and x <= r that keeps the invariant, the i-th
      pass has y advanced by i and 0 <= y <= x <= r, and there are at most
      x - y + 1 passes. */
  lemma {:induction false} PassesShape(r: int, s: Mid)
    requires MidInv(r, s) && 0 <= s.y && s.x <= r
    ensures |Passes(s)| <= Max(0, s.x - s.y + 1)
    ensures forall i | 0 <= i < |Passes(s)| ::
      && Passes(s)[i].y == s.y + i
      && Passes(s)[i].y <= Passes(s)[i].x <= r
      && MidInv(r, Passes(s)[i])
    decreases s.x - s.y
  {
    if s.x >= s.y {
      MidStepKeeps(r, s);
      PassesShape(r, MidStep(s));
      assert Passes(s) == [s] + Passes(MidStep(s));
    }
  }

  /** The loop runs at most radius + 1 passes, none for a negative radius and
      at least one otherwise; the i-th pass has y == i and i <= x <= radius,
      and every pass keeps the error invariant. */
  lemma ScheduleShape(radius: int)
    ensures radius < 0 ==> Schedule(radius) == []
    ensures radius >= 0 ==> 1 <= |Schedule(radius)| <= radius + 1
    ensures forall i | 0 <= i < |Schedule(radius)| ::
      && Schedule(radius)[i].y == i
      && i <= Schedule(radius)[i].x <= radius
      && MidInv(radius, Schedule(radius)[i])
  {
    PassesShape(radius, Mid(radius, 0, 0));
  }

  /** The radii for which the loop's own arithmetic provably stays in i32. */
  predicate RadiusFits(radius: int) {
    radius < 0 || 10 * radius + 7 <= I32_MAX
  }

  /** Every value one pass's update computes fits in i32: `y + 1`, `2 * y`,
      `1 + 2 * y` and the new err; the test `2 * (err - x) + 1`; and, when x
      moves in, `x - 1`, `2 * x`, `1 - 2 * x` and the err after them. */
  predicate MidArithOk(s: Mid) {
    var y := s.y + 1;
    var err := s.err + (1 + 2 * y);
    && InI32(y) && InI32(2 * y) && InI32(1 + 2 * y) && InI32(err)
    && InI32(err - s.x) && InI32(2 * (err - s.x)) && InI32(2 * (err - s.x) + 1)
    && (2 * (err - s.x) + 1 > 0 ==>
          var x := s.x - 1;
          InI32(x) && InI32(2 * x) && InI32(1 - 2 * x) && InI32(err + (1 - 2 * x)))
  }

  /** Linear bounds on the error term: at least -x, and at most r + 2 * y,
      or r + 2 * y + 4 once the loop has stopped. */
  predicate ErrBand(r: int, s: Mid) {
    && 0 <= s.y && s.x <= r
    && -s.x <= s.err <= r + 2 * s.y + (if s.y > s.x then 4 else 0)
  }

  /** Within the band, a pass computes nothing outside i32, and the state
      after it is within the band again. */
  lemma MidStepFits(r: int, s: Mid)
    requires RadiusFits(r) && ErrBand(r, s) && s.y <= s.x
    ensures MidArithOk(s)
    ensures ErrBand(r, MidStep(s))
  {
  }

  lemma {:induction false} PassesArithOk(r: int, s: Mid)
    requires RadiusFits(r) && ErrBand(r, s)
    ensures forall i | 0 <= i < |Passes(s)| :: MidArithOk(Passes(s)[i])
    decreases s.x - s.y
  {
    if s.x >= s.y {
      MidStepFits(r, s);
      PassesArithOk(r, MidStep(s));
      assert Passes(s) == [s] + Passes(MidStep(s));
    }
  }

  /** For a radius within `RadiusFits`, no pass of the loop computes a value
      outside i32. */
  lemma ScheduleArithOk(radius: int)
    requires RadiusFits(radius)
    ensures forall i | 0 <= i < |Schedule(radius)| :: MidArithOk(Schedule(radius)[i])
  {
    if radius >= 0 {
      PassesArithOk(radius, Mid(radius, 0, 0));
    }
  }

  /** The eight points a pass of draw_circle plots, in the order it plots
      them. */
  function Octants(pos: Point, m: Mid): seq<Point> {
    [Point(pos.x + m.x, pos.y + m.y), Point(pos.x - m.x, pos.y + m.y),
     Point(pos.x + m.x, pos.y - m.y), Point(pos.x - m.x, pos.y - m.y),
     Point(pos.x + m.y, pos.y + m.x), Point(pos.x - m.y, pos.y + m.x),
     Point(pos.x + m.y, pos.y - m.x), Point(pos.x - m.y, pos.y - m.x)]
  }

  /** `p` is (x, y) or (y, x) about `pos`, under any choice of signs. */
  predicate SymImage(pos: Point, m: Mid, p: Point) {
    || (Abs(p.x - pos.x) == m.x && Abs(p.y - pos.y) == m.y)
    || (Abs(p.x - pos.x) == m.y && Abs(p.y - pos.y) == m.x)
  }

  /** The eight points of a pass are exactly the sign and swap images of
      (x, y). */
  lemma OctantsAreImages(pos: Point, m: Mid, p: Point)
    requires 0 <= m.y <= m.x
    ensures p in Octants(pos, m) <==> SymImage(pos, m, p)
  {
  }

  /** The points of the given passes, eight per pass. */
  function Outline(pos: Point, passes: seq<Mid>): seq<Point> {
    if |passes| == 0 then [] else Octants(pos, passes[0]) + Outline(pos, passes[1..])
  }

  /** Everything draw_circle plots, in order. */
  function CirclePoints(pos: Point, radius: int): seq<Point> {
    Outline(pos, Schedule(radius))
  }

  lemma {:induction false} OutlineMembers(pos: Point, passes: seq<Mid>, p: Point)
    ensures |Outline(pos, passes)| == 8 * |passes|
    ensures p in Outline(pos, passes) <==> exists i | 0 <= i < |passes| :: p in Octants(pos, passes[i])
    decreases |passes|
  {
    if |passes| > 0 {
      OutlineMembers(pos, passes[1..], p);
      if p in Octants(pos, passes[0]) {
        assert p in Octants(pos, passes[0]);
      } else if exists i | 0 <= i < |passes| :: p in Octants(pos, passes[i]) {
        var i :| 0 <= i < |passes| && p in Octants(pos, passes[i]);
        assert p in Octants(pos, passes[1..][i - 1]);
      }
    }
  }

  /** draw_circle plots eight points per pass, and a point is plotted exactly
      when it is a sign and swap image of some pass's (x, y), where
      0 <= y <= x <= radius. */
  lemma CircleOffsets(pos: Point, radius: int, p: Point)
    ensures |CirclePoints(pos, radius)| == 8 * |Schedule(radius)|
    ensures p in CirclePoints(pos, radius) <==>
      exists i | 0 <= i < |Schedule(radius)| :: SymImage(pos, Schedule(radius)[i], p)
  {
    var passes := Schedule(radius);
    ScheduleShape(radius);
    OutlineMembers(pos, passes, p);
    forall i | 0 <= i < |passes|
      ensures p in Octants(pos, passes[i]) <==> SymImage(pos, passes[i], p)
    {
      OctantsAreImages(pos, passes[i], p);
    }
  }

  /** The square of half-width `radius` around `pos`. */
  predicate Near(pos: Point, radius: int, p: Point) {
    Abs(p.x - pos.x) <= radius && Abs(p.y - pos.y) <= radius
  }

  /** Every plotted point lies within `radius` of `pos` on each axis. */
  lemma CircleNear(pos: Point, radius: int)
    ensures forall p | p in CirclePoints(pos, radius) :: Near(pos, radius, p)
  {
    forall p | p in CirclePoints(pos, radius) ensures Near(pos, radius, p) {
      CircleOffsets(pos, radius, p);
      ScheduleShape(radius);
    }
  }

  /** A circle of radius 0 plots `pos` eight times, and a circle of negative
      radius plots nothing. */
  lemma CircleDegenerate(pos: Point, radius: int)
    ensures radius == 0 ==> CirclePoints(pos, radius) == [pos, pos, pos, pos, pos, pos, pos, pos]
    ensures radius < 0 ==> CirclePoints(pos, radius) == []
  {
    if radius == 0 {
      assert MidStep(Mid(0, 0, 0)) == Mid(-1, 1, 6);
      assert Passes(Mid(-1, 1, 6)) == [];
      assert Schedule(0) == [Mid(0, 0, 0)];
      assert Outline(pos, [Mid(0, 0, 0)]) == Octants(pos, Mid(0, 0, 0)) + Outline(pos, []);
    }
  }

  /** draw_circle's arithmetic stays in i32: the loop's own, and the
      coordinates and pixel offset of every point it plots. */
  ghost predicate CircleFits(size: Point, pos: Point, radius: int) {
    && RadiusFits(radius)
    && forall p | p in CirclePoints(pos, radius) :: InI32(p.x) && InI32(p.y) && OffsetFits(size, p)
  }

  /** One pass of draw_circle moves the pass's eight points from the points
      still to plot to the points plotted. */
  lemma OutlineNext(size: Point, pos: Point, s: Mid, plotted: seq<Point>, all: seq<Point>)
    requires s.x >= s.y
    requires plotted + Outline(pos, Passes(s)) == all
    requires forall i | 0 <= i < |all| :: OffsetFits(size, all[i])
    ensures (plotted + Octants(pos, s)) + Outline(pos, Passes(MidStep(s))) == all
    ensures forall i | 0 <= i < |Octants(pos, s)| :: OffsetFits(size, Octants(pos, s)[i])
  {
    var pts := Octants(pos, s);
    var rest := Outline(pos, Passes(MidStep(s)));
    assert Outline(pos, Passes(s)) == pts + rest;
    assert all == (plotted + pts) + rest;
    forall i | 0 <= i < |pts| ensures OffsetFits(size, pts[i]) {
      assert pts[i] == all[|plotted| + i];
    }
  }

  /** draw_circle: draws the eight points of every pass straight into the
      buffer, with no coordinate check. */
  method DrawCircle(buffer: seq<Byte>, size: Point, pos: Point, radius: int, color: Color)
    returns (r: seq<Byte>, plotted: seq<Point>)
    requires CircleFits(size, pos, radius)
    ensures plotted == CirclePoints(pos, radius)
    ensures forall i | 0 <= i < |plotted| :: OffsetFits(size, plotted[i])
    ensures r == PlotAll(buffer, size, plotted, color)
  {
    ghost var all := CirclePoints(pos, radius);
    forall i | 0 <= i < |all| ensures OffsetFits(size, all[i]) {
      assert all[i] in all;
    }
    var s := Mid(radius, 0, 0);
    r := buffer;
    plotted := [];
    while s.x >= s.y
      invariant s.x >= s.y ==> ErrBand(radius, s)
      invariant plotted + Outline(pos, Passes(s)) == all
      invariant forall i | 0 <= i < |plotted| :: OffsetFits(size, plotted[i])
      invariant r == PlotAll(buffer, size, plotted, color)
      decreases s.x - s.y
    {
      MidStepFits(radius, s);
      assert MidArithOk(s);
      var pts := Octants(pos, s);
      OutlineNext(size, pos, s, plotted, all);
      PlotAllAppend(buffer, size, plotted, pts, color);
      r := PlotAll(r, size, pts, color);
      plotted := plotted + pts;
      s := MidStep(s);
    }
    assert Passes(s) == [];
  }

  /** A horizontal span draw_filled_circle hands to draw_line. */
  datatype Chord = Chord(from: Point, to: Point)

  /** The four chords a pass of draw_filled_circle draws, in order. */
  function PassChords(pos: Point, m: Mid): seq<Chord> {
    [Chord(Point(pos.x + m.x, pos.y + m.y), Point(pos.x - m.x, pos.y + m.y)),
     Chord(Point(pos.x + m.y, pos.y + m.x), Point(pos.x - m.y, pos.y + m.x)),
     Chord(Point(pos.x - m.x, pos.y - m.y), Point(pos.x + m.x, pos.y - m.y)),
     Chord(Point(pos.x - m.y, pos.y - m.x), Point(pos.x + m.y, pos.y - m.x))]
  }

  /** The chord endpoints of a pass are exactly its eight outline points. */
  lemma PassChordEnds(pos: Point, m: Mid, p: Point)
    ensures p in Octants(pos, m) <==> exists c | c in PassChords(pos, m) :: p == c.from || p == c.to
  {
    var cs := PassChords(pos, m);
    if p in Octants(pos, m) {
      assert p == cs[0].from || p == cs[0].to || p == cs[1].from || p == cs[1].to
          || p == cs[2].to || p == cs[2].from || p == cs[3].to || p == cs[3].from;
    }
  }

  /** The chords of the given passes, four per pass. */
  function DiscChords(pos: Point, passes: seq<Mid>): seq<Chord> {
    if |passes| == 0 then [] else PassChords(pos, passes[0]) + DiscChords(pos, passes[1..])
  }

  /** The walks draw_line takes along the chords, one after another. */
  function ChordPaths(chords: seq<Chord>): seq<Point> {
    if |chords| == 0 then [] else LinePath(chords[0].from, chords[0].to) + ChordPaths(chords[1..])
  }

  /** Everything draw_filled_circle hands to draw_pixel, before clipping. */
  function DiscPoints(pos: Point, radius: int): seq<Point> {
    ChordPaths(DiscChords(pos, Schedule(radius)))
  }

  lemma {:induction false} ChordPathsAppend(a: seq<Chord>, b: seq<Chord>)
    ensures ChordPaths(a + b) == ChordPaths(a) + ChordPaths(b)
    decreases |a|
  {
    if |a| == 0 {
      assert a + b == b;
    } else {
      var c, rest := a[0], a[1..];
      assert (a + b)[0] == c && (a + b)[1..] == rest + b;
      calc {
        ChordPaths(a + b);
        LinePath(c.from, c.to) + ChordPaths(rest + b);
        { ChordPathsAppend(rest, b); }
        LinePath(c.from, c.to) + (ChordPaths(rest) + ChordPaths(b));
      }
    }
  }

  /** Every point of a chord's walk is drawn by the chords it belongs to. */
  lemma {:induction false} ChordPathIn(chords: seq<Chord>, c: Chord, p: Point)
    requires c in chords && p in LinePath(c.from, c.to)
    ensures p in ChordPaths(chords)
    decreases |chords|
  {
    if chords[0] != c {
      ChordPathIn(chords[1..], c, p);
    }
  }

  /** A point is drawn by a run of chords exactly when it is on the walk of
      one of them. */
  lemma {:induction false} ChordPathsMembers(chords: seq<Chord>, p: Point)
    ensures p in ChordPaths(chords) <==> exists c | c in chords :: p in LinePath(c.from, c.to)
    decreases |chords|
  {
    if |chords| > 0 {
      ChordPathsMembers(chords[1..], p);
      if p in ChordPaths(chords) && p !in LinePath(chords[0].from, chords[0].to) {
        var c :| c in chords[1..] && p in LinePath(c.from, c.to);
        assert c in chords;
      }
      if exists c | c in chords :: p in LinePath(c.from, c.to) {
        var c :| c in chords && p in LinePath(c.from, c.to);
        ChordPathIn(chords, c, p);
      }
    }
  }

  /** Every chord is horizontal and its endpoints are mirrored about pos.x;
      it spans at most `radius` either side of `pos` on its row, and its row
      is at most `radius` from pos.y. */
  lemma DiscChordsShape(pos: Point, radius: int)
    ensures forall c | c in DiscChords(pos, Schedule(radius)) ::
      && c.from.y == c.to.y
      && c.from.x + c.to.x == 2 * pos.x
      && Near(pos, radius, c.from) && Near(pos, radius, c.to)
  {
    ScheduleShape(radius);
    DiscChordsNear(pos, radius, Schedule(radius));
  }

  lemma {:induction false} DiscChordsNear(pos: Point, radius: int, passes: seq<Mid>)
    requires forall i | 0 <= i < |passes| :: 0 <= passes[i].y <= passes[i].x <= radius
    ensures forall c | c in DiscChords(pos, passes) ::
      && c.from.y == c.to.y
      && c.from.x + c.to.x == 2 * pos.x
      && Near(pos, radius, c.from) && Near(pos, radius, c.to)
    decreases |passes|
  {
    if |passes| > 0 {
      DiscChordsNear(pos, radius, passes[1..]);
      PassChordsNear(pos, radius, passes[0]);
      assert DiscChords(pos, passes) == PassChords(pos, passes[0]) + DiscChords(pos, passes[1..]);
    }
  }

  lemma PassChordsNear(pos: Point, radius: int, m: Mid)
    requires 0 <= m.y <= m.x <= radius
    ensures forall c | c in PassChords(pos, m) ::
      && c.from.y == c.to.y
      && c.from.x + c.to.x == 2 * pos.x
      && Near(pos, radius, c.from) && Near(pos, radius, c.to)
  {
  }

  /** Every point draw_filled_circle hands to draw_line's walk lies within
      `radius` of `pos` on each axis, as the outline's points do. */
  lemma DiscNear(pos: Point, radius: int)
    ensures forall p | p in DiscPoints(pos, radius) :: Near(pos, radius, p)
  {
    var chords := DiscChords(pos, Schedule(radius));
    DiscChordsShape(pos, radius);
    forall p | p in DiscPoints(pos, radius) ensures Near(pos, radius, p) {
      ChordPathsMembers(chords, p);
      var c :| c in chords && p in LinePath(c.from, c.to);
      ChordInBox(pos, radius, c, p);
    }
  }

  /** A point on the walk of a horizontal chord whose ends are near `pos`
      is near `pos` too. */
  lemma ChordInBox(pos: Point, radius: int, c: Chord, p: Point)
    requires c.from.y == c.to.y && Near(pos, radius, c.from) && Near(pos, radius, c.to)
    requires p in LinePath(c.from, c.to)
    ensures Near(pos, radius, p)
  {
    var path := LinePath(c.from, c.to);
    LinePathShape(c.from, c.to);
    var i :| 0 <= i < |path| && path[i] == p;
    assert Between(p.x, c.from.x, c.to.x) && Between(p.y, c.from.y, c.to.y);
  }

  /** The chords of a pass are among the chords of the passes containing it. */
  lemma {:induction false} PassChordsIn(pos: Point, passes: seq<Mid>, i: int, c: Chord)
    requires 0 <= i < |passes| && c in PassChords(pos, passes[i])
    ensures c in DiscChords(pos, passes)
    decreases |passes|
  {
    if i > 0 {
      PassChordsIn(pos, passes[1..], i - 1, c);
    }
  }

  /** Every point draw_circle plots is drawn by draw_filled_circle. */
  lemma FilledCoversOutline(pos: Point, radius: int, p: Point)
    requires p in CirclePoints(pos, radius)
    ensures p in DiscPoints(pos, radius)
  {
    var passes := Schedule(radius);
    OutlineMembers(pos, passes, p);
    var i :| 0 <= i < |passes| && p in Octants(pos, passes[i]);
    PassChordEnds(pos, passes[i], p);
    var c :| c in PassChords(pos, passes[i]) && (p == c.from || p == c.to);
    LinePathEnds(c.from, c.to);
    PassChordsIn(pos, passes, i, c);
    ChordPathIn(DiscChords(pos, passes), c, p);
  }

  /** At every pass, the disc draws every x within x of pos.x on the rows
      pos.y + y and pos.y - y: the pass's two long spans are filled. */
  lemma DiscRowsFilled(pos: Point, radius: int, i: int, x: int)
    requires 0 <= i < |Schedule(radius)|
    requires Abs(x - pos.x) <= Schedule(radius)[i].x
    ensures Point(x, pos.y + Schedule(radius)[i].y) in DiscPoints(pos, radius)
    ensures Point(x, pos.y - Schedule(radius)[i].y) in DiscPoints(pos, radius)
  {
    PassRowsFilled(pos, Schedule(radius), i, x);
  }

  /** At every pass, the disc draws every x within y of pos.x on the rows
      pos.y + x and pos.y - x: the pass's two short spans are filled. */
  lemma DiscColumnsFilled(pos: Point, radius: int, i: int, x: int)
    requires 0 <= i < |Schedule(radius)|
    requires Abs(x - pos.x) <= Schedule(radius)[i].y
    ensures Point(x, pos.y + Schedule(radius)[i].x) in DiscPoints(pos, radius)
    ensures Point(x, pos.y - Schedule(radius)[i].x) in DiscPoints(pos, radius)
  {
    PassColumnsFilled(pos, Schedule(radius), i, x);
  }

  lemma PassRowsFilled(pos: Point, passes: seq<Mid>, i: int, x: int)
    requires 0 <= i < |passes|
    requires Abs(x - pos.x) <= passes[i].x
    ensures Point(x, pos.y + passes[i].y) in ChordPaths(DiscChords(pos, passes))
    ensures Point(x, pos.y - passes[i].y) in ChordPaths(DiscChords(pos, passes))
  {
    var m := passes[i];
    var left, right, below, above := pos.x - m.x, pos.x + m.x, pos.y + m.y, pos.y - m.y;
    assert Chord(Point(right, below), Point(left, below)) == PassChords(pos, m)[0];
    assert Chord(Point(left, above), Point(right, above)) == PassChords(pos, m)[2];
    assert Between(x, right, left) && Between(x, left, right);
    PassSpanFilled(pos, passes, i, right, left, below, x);
    PassSpanFilled(pos, passes, i, left, right, above, x);
    assert Point(x, below) == Point(x, pos.y + passes[i].y);
    assert Point(x, above) == Point(x, pos.y - passes[i].y);
  }

  lemma PassColumnsFilled(pos: Point, passes: seq<Mid>, i: int, x: int)
    requires 0 <= i < |passes|
    requires Abs(x - pos.x) <= passes[i].y
    ensures Point(x, pos.y + passes[i].x) in ChordPaths(DiscChords(pos, passes))
    ensures Point(x, pos.y - passes[i].x) in ChordPaths(DiscChords(pos, passes))
  {
    var m := passes[i];
    var left, right, below, above := pos.x - m.y, pos.x + m.y, pos.y + m.x, pos.y - m.x;
    assert Chord(Point(right, below), Point(left, below)) == PassChords(pos, m)[1];
    assert Chord(Point(left, above), Point(right, above)) == PassChords(pos, m)[3];
    assert Between(x, right, left) && Between(x, left, right);
    PassSpanFilled(pos, passes, i, right, left, below, x);
    PassSpanFilled(pos, passes, i, left, right, above, x);
    assert Point(x, below) == Point(x, pos.y + passes[i].x);
    assert Point(x, above) == Point(x, pos.y - passes[i].x);
  }

  /** Every x on a chord of a pass is drawn by the passes' chords. */
  lemma PassSpanFilled(pos: Point, passes: seq<Mid>, i: int, x0: int, x1: int, y: int, x: int)
    requires 0 <= i < |passes|
    requires Chord(Point(x0, y), Point(x1, y)) in PassChords(pos, passes[i])
    requires Between(x, x0, x1)
    ensures Point(x, y) in ChordPaths(DiscChords(pos, passes))
  {
    var c := Chord(Point(x0, y), Point(x1, y));
    HorizontalLineCovers(c.from, c.to, x);
    PassChordsIn(pos, passes, i, c);
    ChordPathIn(DiscChords(pos, passes), c, Point(x, y));
  }

  /** Every chord of a pass inside the square of `radius` keeps draw_line's
      arithmetic in i32. */
  lemma PassChordsArithOk(pos: Point, radius: int, m: Mid)
    requires DiscFits(pos, radius)
    requires 0 <= m.y <= m.x <= radius
    ensures forall c | c in PassChords(pos, m) :: LineArithOk(c.from, c.to)
  {
    var cs := PassChords(pos, m);
    assert LineArithOk(cs[0].from, cs[0].to);
    assert LineArithOk(cs[1].from, cs[1].to);
    assert LineArithOk(cs[2].from, cs[2].to);
    assert LineArithOk(cs[3].from, cs[3].to);
  }

  /** The i32 range in which neither the loop's arithmetic, nor the
      chords' coordinates, nor draw_line's arithmetic on them overflows. */
  predicate DiscFits(pos: Point, radius: int) {
    && RadiusFits(radius)
    && (radius < 0 ||
          (&& InI32(pos.x - radius) && InI32(pos.x + radius)
           && InI32(pos.y - radius) && InI32(pos.y + radius)))
  }

  /** Draws a run of chords with draw_line, one after another. */
  method DrawChords(buffer: seq<Byte>, size: Point, chords: seq<Chord>, color: Color) returns (r: seq<Byte>)
    requires CanvasFits(size)
    requires forall c | c in chords :: LineArithOk(c.from, c.to)
    ensures r == PlotClipped(buffer, size, ChordPaths(chords), color)
  {
    r := buffer;
    var i := 0;
    while i < |chords|
      invariant 0 <= i <= |chords|
      invariant r == PlotClipped(buffer, size, ChordPaths(chords[..i]), color)
    {
      var c := chords[i];
      var path;
      ChordPathsAppend(chords[..i], [c]);
      assert chords[..i + 1] == chords[..i] + [c];
      assert ChordPaths([c]) == LinePath(c.from, c.to);
      PlotClippedAppend(buffer, size, ChordPaths(chords[..i]), LinePath(c.from, c.to), color);
      r, path := DrawLine(r, size, c.from, c.to, color);
      i := i + 1;
    }
    assert chords[..i] == chords;
  }

  /** draw_filled_circle: draws the four chords of every pass with
      draw_line, which skips the off-canvas pixels. */
  method DrawFilledCircle(buffer: seq<Byte>, size: Point, pos: Point, radius: int, color: Color)
    returns (r: seq<Byte>, chords: seq<Chord>)
    requires CanvasFits(size)
    requires DiscFits(pos, radius)
    ensures chords == DiscChords(pos, Schedule(radius))
    ensures r == PlotClipped(buffer, size, DiscPoints(pos, radius), color)
  {
    ghost var all := DiscChords(pos, Schedule(radius));
    var s := Mid(radius, 0, 0);
    r := buffer;
    chords := [];
    while s.x >= s.y
      invariant 0 <= s.y && s.x <= radius
      invariant s.x >= s.y ==> ErrBand(radius, s)
      invariant chords + DiscChords(pos, Passes(s)) == all
      invariant r == PlotClipped(buffer, size, ChordPaths(chords), color)
      decreases s.x - s.y
    {
      MidStepFits(radius, s);
      assert MidArithOk(s);
      var cs := PassChords(pos, s);
      DiscNext(buffer, size, pos, s, chords, all, color);
      PassChordsArithOk(pos, radius, s);
      r := DrawChords(r, size, cs, color);
      chords := chords + cs;
      s := MidStep(s);
    }
    assert Passes(s) == [];
  }

  /** One pass of draw_filled_circle moves the pass's four chords from the
      chords still to draw to the chords drawn. */
  lemma DiscNext(buffer: seq<Byte>, size: Point, pos: Point, s: Mid, chords: seq<Chord>, all: seq<Chord>, color: Color)
    requires CanvasFits(size)
    requires s.x >= s.y
    requires chords + DiscChords(pos, Passes(s)) == all
    ensures var cs := PassChords(pos, s);
      && (chords + cs) + DiscChords(pos, Passes(MidStep(s))) == all
      && PlotClipped(buffer, size, ChordPaths(chords + cs), color)
         == PlotClipped(PlotClipped(buffer, size, ChordPaths(chords), color), size, ChordPaths(cs), color)
      && MidStep(s).y == s.y + 1 && MidStep(s).x <= s.x
  {
    var cs := PassChords(pos, s);
    var later := Passes(MidStep(s));
    assert Passes(s) == [s] + later;
    assert ([s] + later)[0] == s && ([s] + later)[1..] == later;
    assert DiscChords(pos, Passes(s)) == cs + DiscChords(pos, later);
    assert chords + (cs + DiscChords(pos, later)) == (chords + cs) + DiscChords(pos, later);
    ChordPathsAppend(chords, cs);
    PlotClippedAppend(buffer, size, ChordPaths(chords), ChordPaths(cs), color);
  }

  /** Every on-canvas point of the outline is painted by the filled disc. */
  lemma FilledPaintsOutline(buffer: seq<Byte>, size: Point, pos: Point, radius: int, color: Color, p: Point)
    requires CanvasFits(size)
    requires p in CirclePoints(pos, radius) && InCanvas(size, p)
    requires Offset(size, p) + 4 <= |buffer|
    ensures PaintedAt(PlotClipped(buffer, size, DiscPoints(pos, radius), color), size, p, color)
  {
    FilledCoversOutline(pos, radius, p);
    PlotClippedPaints(buffer, size, DiscPoints(pos, radius), color, p);
  }
}

=== FILE: geometry.dfy ===
/** Integer geometry shared by every rasterizer.

    A `Point` stands for glam's `IVec2`: a pair of i32 coordinates, origin at
    the top left, x to the right and y downwards. Coordinates are unbounded
    here; the i32 range is stated where an operation needs it.
 */
module Geometry {

  datatype Point = Point(x: int, y: int)

  const I32_MIN: int := -0x8000_0000
  const I32_MAX: int := 0x7FFF_FFFF

  predicate InI32(v: int) {
    I32_MIN <= v <= I32_MAX
  }

  function Abs(v: int): (r: nat)
    ensures r == v || r == -v
  {
    if v < 0 then -v else v
  }

  function Max(a: int, b: int): int {
    if a < b then b else a
  }

  /** `v` lies on the closed segment between `a` and `b`, in either order. */
  predicate Between(v: int, a: int, b: int) {
    (a <= v <= b) || (b <= v <= a)
  }

  /** a * b as |a| repeated additions of b. Contexts that see only `Mul`
      stay within linear arithmetic; `MulIsProduct` brings in the product
      where a proof needs it. */
  function Mul(a: int, b: int): int
    decreases Abs(a)
  {
    if a == 0 then 0 else if a > 0 then Mul(a - 1, b) + b else Mul(a + 1, b) - b
  }

  lemma {:induction false} MulIsProduct(a: int, b: int)
    ensures Mul(a, b) == a * b
    decreases Abs(a)
  {
    if a > 0 {
      MulIsProduct(a - 1, b);
    } else if a < 0 {
      MulIsProduct(a + 1, b);
    }
  }

  /** With a non-negative `b`, `Mul(a, b)` grows with `a` from 0. */
  lemma {:induction false} MulMonotone(a: int, a': int, b: int)
    requires 0 <= a <= a' && 0 <= b
    ensures 0 <= Mul(a, b) <= Mul(a', b)
    decreases a'
  {
    if a < a' {
      MulMonotone(a, a' - 1, b);
    } else if a > 0 {
      MulMonotone(a - 1, a - 1, b);
    }
  }


  /** Rust's `/` on signed integers rounds toward zero; Dafny's `/` is
      Euclidean and rounds a negative dividend downwards. */
  function TruncDiv(a: int, b: int): (q: int)
    requires b > 0
    ensures a >= 0 ==> 0 <= a - q * b < b
    ensures a < 0 ==> -b < a - q * b <= 0
  {
    if a >= 0 then a / b else -((-a) / b)
  }
}

=== FILE: line.dfy ===
/** draw_line: the integer Bresenham walk from `start` to `end`.

    `LinePath` is the walk as a pure function of the endpoints; `DrawLine`
    is the loop itself, which plots the on-canvas points of that walk.
 */
module Line {
  import opened Geometry
  import opened Pixel

  /** What draw_line derives from its endpoints before the loop: the
      distances, the step directions and the initial error term. */
  datatype Setup = Setup(dx: int, dy: int, sx: int, sy: int, err0: int)

  function SetupOf(start: Point, end: Point): Setup {
    var dx: int := Abs(end.x - start.x);
    var dy: int := Abs(end.y - start.y);
    Setup(dx, dy,
          if start.x < end.x then 1 else -1,
          if start.y < end.y then 1 else -1,
          TruncDiv(if dx > dy then dx else -dy, 2))
  }

  /** The loop variables. */
  datatype State = State(x: int, y: int, err: int)

  function Initial(start: Point, end: Point): State {
    State(start.x, start.y, SetupOf(start, end).err0)
  }

  /** One pass of the loop after the end test; both tests read the error
      term saved before either update. */
  function Step(k: Setup, s: State): State {
    var e2 := s.err;
    var stepX := e2 > -k.dx;
    var stepY := e2 < k.dy;
    State(if stepX then s.x + k.sx else s.x,
          if stepY then s.y + k.sy else s.y,
          s.err - (if stepX then k.dy else 0) + (if stepY then k.dx else 0))
  }

  /** Remaining distance to `end`, which every pass shortens. */
  function Dist(s: State, end: Point): nat {
    Abs(end.x - s.x) + Abs(end.y - s.y)
  }

  /** Moves x by 0 or sx and y by 0 or sy, and moves at least one of them. */
  predicate UnitStep(k: Setup, p: Point, q: Point) {
    && (q.x == p.x || q.x == p.x + k.sx)
    && (q.y == p.y || q.y == p.y + k.sy)
    && p != q
  }

  /** The loop invariant. The point stays in the box spanned by the
      endpoints, the error term records how far the walk has come in each
      axis, and it stays in the range where the major axis (x when dx > dy,
      y otherwise) steps on every pass. */
  ghost predicate Reachable(start: Point, end: Point, s: State) {
    var k := SetupOf(start, end);
    && Between(s.x, start.x, end.x)
    && Between(s.y, start.y, end.y)
    && s.err == k.err0 + Mul(Abs(s.y - start.y), k.dx) - Mul(Abs(s.x - start.x), k.dy)
    && (if k.dx > k.dy then 0 <= s.err < k.dx else k.dy == 0 || -k.dy < s.err <= 0)
  }

  lemma InitialReachable(start: Point, end: Point)
    ensures Reachable(start, end, Initial(start, end))
  {
  }

  lemma MulSubLeft(a: int, b: int, c: int)
    ensures (a - b) * c == a * c - b * c
  {
  }

  lemma MulAtLeast(a: int, b: int)
    requires a >= 1 && b >= 0
    ensures a * b >= b
  {
  }

  /** When x has reached end.x but y has not, the error term is at least dx
      below its start value. */
  lemma ShortInY(dx: int, dy: int, u: int, v: int)
    requires 0 <= v < dy && u == dx && dx >= 0
    ensures v * dx - u * dy <= -dx
  {
    MulSubLeft(dy, v, dx);
    MulAtLeast(dy - v, dx);
    assert u * dy == dy * dx;
  }

  /** When y has reached end.y but x has not, the error term is at least dy
      above its start value. */
  lemma ShortInX(dx: int, dy: int, u: int, v: int)
    requires 0 <= u < dx && v == dy && dy >= 0
    ensures v * dx - u * dy >= dy
  {
    MulSubLeft(dx, u, dy);
    MulAtLeast(dx - u, dy);
    assert v * dx == dx * dy;
  }

  /** One axis of the walk: `c` lies between `a` and `b`, and `sc` points
      from `a` towards `b`. */
  lemma AxisStep(a: int, b: int, c: int, sc: int)
    requires Between(c, a, b)
    requires sc == if a < b then 1 else -1
    ensures Abs(c - a) <= Abs(b - a)
    ensures c == b <==> Abs(c - a) == Abs(b - a)
  {
  }

  /** Moving one axis by `sc` when `step` holds, short of `b`, stays between
      `a` and `b`, one further from `a` and one closer to `b`. */
  lemma AxisMove(a: int, b: int, c: int, sc: int, step: bool)
    requires Between(c, a, b)
    requires sc == if a < b then 1 else -1
    requires step ==> c != b
    ensures var c' := if step then c + sc else c;
      && Between(c', a, b)
      && Abs(c' - a) == Abs(c - a) + (if step then 1 else 0)
      && Abs(b - c') + (if step then 1 else 0) == Abs(b - c)
  {
  }

  /** The error update keeps the error equation with the new distances. */
  lemma ErrUpdate(err0: int, dx: int, dy: int, u: nat, v: nat, stepX: bool, stepY: bool, err: int)
    requires err == err0 + Mul(v, dx) - Mul(u, dy)
    ensures err - (if stepX then dy else 0) + (if stepY then dx else 0)
         == err0 + Mul(v + (if stepY then 1 else 0), dx) - Mul(u + (if stepX then 1 else 0), dy)
  {
    assert Mul(v + 1, dx) == Mul(v, dx) + dx;
    assert Mul(u + 1, dy) == Mul(u, dy) + dy;
  }

  /** Which axes a pass from a reachable state other than `end` moves: an
      axis moves only while it is short of `end`, the major axis always
      moves, and the new error term stays in the major axis's range. */
  lemma StepGuards(start: Point, end: Point, s: State)
    requires Reachable(start, end, s)
    requires Point(s.x, s.y) != end
    ensures var k := SetupOf(start, end);
      var t := Step(k, s);
      && (s.err > -k.dx ==> s.x != end.x)
      && (s.err < k.dy ==> s.y != end.y)
      && (k.dx > k.dy ==> s.err > -k.dx && 0 <= t.err < k.dx)
      && (k.dx <= k.dy ==> s.err < k.dy && -k.dy < t.err <= 0)
  {
    var k := SetupOf(start, end);
    var u, v := Abs(s.x - start.x), Abs(s.y - start.y);
    MulIsProduct(u, k.dy);
    MulIsProduct(v, k.dx);
    AxisStep(start.x, end.x, s.x, k.sx);
    AxisStep(start.y, end.y, s.y, k.sy);
    if k.dx > k.dy {
      XMajorStep(k, u, v, s.err);
    } else {
      YMajorStep(k, u, v, s.err);
    }
  }

  /** A pass from any reachable state other than `end` stays reachable. */
  lemma StepKeepsReachable(start: Point, end: Point, s: State)
    requires Reachable(start, end, s)
    requires Point(s.x, s.y) != end
    ensures Reachable(start, end, Step(SetupOf(start, end), s))
  {
    StepGuards(start, end, s);
    StepInBox(start, end, s);
    StepKeepsErr(start, end, s);
  }

  /** A pass stays in the box and moves each axis one further from `start`
      exactly when it steps that axis. */
  lemma StepInBox(start: Point, end: Point, s: State)
    requires Reachable(start, end, s)
    requires Point(s.x, s.y) != end
    ensures var k := SetupOf(start, end);
      var t := Step(k, s);
      && Between(t.x, start.x, end.x) && Between(t.y, start.y, end.y)
      && Abs(t.x - start.x) == Abs(s.x - start.x) + (if s.err > -k.dx then 1 else 0)
      && Abs(t.y - start.y) == Abs(s.y - start.y) + (if s.err < k.dy then 1 else 0)
  {
    var k := SetupOf(start, end);
    StepGuards(start, end, s);
    AxisMove(start.x, end.x, s.x, k.sx, s.err > -k.dx);
    AxisMove(start.y, end.y, s.y, k.sy, s.err < k.dy);
  }

  /** The error equation survives a pass. */
  lemma StepKeepsErr(start: Point, end: Point, s: State)
    requires Reachable(start, end, s)
    requires Point(s.x, s.y) != end
    ensures var k := SetupOf(start, end);
      var t := Step(k, s);
      t.err == k.err0 + Mul(Abs(t.y - start.y), k.dx) - Mul(Abs(t.x - start.x), k.dy)
  {
    var k := SetupOf(start, end);
    var t := Step(k, s);
    var stepX, stepY := s.err > -k.dx, s.err < k.dy;
    var u, v := Abs(s.x - start.x), Abs(s.y - start.y);
    StepInBox(start, end, s);
    ErrUpdate(k.err0, k.dx, k.dy, u, v, stepX, stepY, s.err);
    calc {
      t.err;
      s.err - (if stepX then k.dy else 0) + (if stepY then k.dx else 0);
      k.err0 + Mul(v + (if stepY then 1 else 0), k.dx) - Mul(u + (if stepX then 1 else 0), k.dy);
      k.err0 + Mul(Abs(t.y - start.y), k.dx) - Mul(Abs(t.x - start.x), k.dy);
    }
  }

  /** A pass from any reachable state other than `end` advances the major
      axis, moves each axis by at most one towards `end` and gets closer to
      it. */
  lemma StepAdvances(start: Point, end: Point, s: State)
    requires Reachable(start, end, s)
    requires Point(s.x, s.y) != end
    ensures var k := SetupOf(start, end);
      var t := Step(k, s);
      && (if k.dx > k.dy then t.x == s.x + k.sx else t.y == s.y + k.sy)
      && (if k.dx > k.dy then Abs(end.x - t.x) + 1 == Abs(end.x - s.x)
          else Abs(end.y - t.y) + 1 == Abs(end.y - s.y))
      && UnitStep(k, Point(s.x, s.y), Point(t.x, t.y))
      && Dist(t, end) < Dist(s, end)
  {
    var k := SetupOf(start, end);
    var stepX, stepY := s.err > -k.dx, s.err < k.dy;
    StepGuards(start, end, s);
    AxisMove(start.x, end.x, s.x, k.sx, stepX);
    AxisMove(start.y, end.y, s.y, k.sy, stepY);
  }

  /** The error-term argument when x is the major axis: x steps on every
      pass, y steps only while it is short of end.y, and the new error term
      stays in [0, dx). */
  lemma XMajorStep(k: Setup, u: nat, v: nat, err: int)
    requires k.dy >= 0 && k.dx > k.dy
    requires u <= k.dx && v <= k.dy && (u, v) != (k.dx, k.dy)
    requires 0 <= k.dx - 2 * k.err0 < 2
    requires err == k.err0 + v * k.dx - u * k.dy
    requires 0 <= err < k.dx
    ensures err > -k.dx && u < k.dx
    ensures err < k.dy ==> v < k.dy
    ensures var err' := err - k.dy + (if err < k.dy then k.dx else 0); 0 <= err' < k.dx
  {
    if u == k.dx {
      ShortInY(k.dx, k.dy, u, v);
      assert false;
    }
    if v == k.dy {
      ShortInX(k.dx, k.dy, u, v);
    }
  }

  /** The error-term argument when y is the major axis (dx <= dy): y steps on
      every pass, x steps only while it is short of end.x, and the new error
      term stays in (-dy, 0]. */
  lemma YMajorStep(k: Setup, u: nat, v: nat, err: int)
    requires k.dx >= 0 && k.dx <= k.dy
    requires u <= k.dx && v <= k.dy && (u, v) != (k.dx, k.dy)
    requires -2 < -k.dy - 2 * k.err0 <= 0
    requires err == k.err0 + v * k.dx - u * k.dy
    requires k.dy == 0 || -k.dy < err <= 0
    ensures err < k.dy && v < k.dy
    ensures err > -k.dx ==> u < k.dx
    ensures var err' := err + k.dx - (if err > -k.dx then k.dy else 0); -k.dy < err' <= 0
  {
    if v == k.dy {
      ShortInX(k.dx, k.dy, u, v);
      assert false;
    }
    if u == k.dx {
      ShortInY(k.dx, k.dy, u, v);
    }
  }

  /** The walk from a reachable state to `end`, one point per pass. */
  function Walk(start: Point, end: Point, s: State): seq<Point>
    requires Reachable(start, end, s)
    decreases Dist(s, end)
  {
    if s.x == end.x && s.y == end.y then [end]
    else
      StepKeepsReachable(start, end, s);
      StepAdvances(start, end, s);
      [Point(s.x, s.y)] + Walk(start, end, Step(SetupOf(start, end), s))
  }

  /** Each pass moves x by 0 or sx and y by 0 or sy. */
  ghost predicate UnitSteps(k: Setup, path: seq<Point>) {
    forall i | 0 <= i < |path| - 1 :: UnitStep(k, path[i], path[i + 1])
  }

  /** Every point lies in the box spanned by the two endpoints. */
  ghost predicate InBox(start: Point, end: Point, path: seq<Point>) {
    forall i | 0 <= i < |path| :: Between(path[i].x, start.x, end.x) && Between(path[i].y, start.y, end.y)
  }

  /** One point per position of the major axis (x when dx > dy, y
      otherwise), starting from `first`. */
  ghost predicate MajorAdvances(k: Setup, first: Point, end: Point, path: seq<Point>) {
    if k.dx > k.dy then
      && |path| == Abs(end.x - first.x) + 1
      && forall i | 0 <= i < |path| :: path[i].x == first.x + (if k.sx == 1 then i else -i)
    else
      && |path| == Abs(end.y - first.y) + 1
      && forall i | 0 <= i < |path| :: path[i].y == first.y + (if k.sy == 1 then i else -i)
  }

  /** The shape of a walk: it starts at `first`, ends exactly at `end`, takes
      unit steps, stays in the box and advances the major axis every pass. */
  ghost predicate WalkShape(start: Point, end: Point, first: Point, path: seq<Point>) {
    var k := SetupOf(start, end);
    && |path| >= 1
    && path[0] == first
    && path[|path| - 1] == end
    && UnitSteps(k, path)
    && InBox(start, end, path)
    && MajorAdvances(k, first, end, path)
  }

  lemma {:induction false} WalkEnds(start: Point, end: Point, s: State)
    requires Reachable(start, end, s)
    ensures var path := Walk(start, end, s);
      |path| >= 1 && path[0] == Point(s.x, s.y) && path[|path| - 1] == end
    decreases Dist(s, end)
  {
    if s.x == end.x && s.y == end.y {
    } else {
      StepKeepsReachable(start, end, s);
      StepAdvances(start, end, s);
      WalkEnds(start, end, Step(SetupOf(start, end), s));
    }
  }

  lemma {:induction false} WalkUnitSteps(start: Point, end: Point, s: State)
    requires Reachable(start, end, s)
    ensures UnitSteps(SetupOf(start, end), Walk(start, end, s))
    decreases Dist(s, end)
  {
    if s.x == end.x && s.y == end.y {
    } else {
      StepKeepsReachable(start, end, s);
      StepAdvances(start, end, s);
      var t := Step(SetupOf(start, end), s);
      WalkUnitSteps(start, end, t);
      WalkEnds(start, end, t);
    }
  }

  lemma {:induction false} WalkInBox(start: Point, end: Point, s: State)
    requires Reachable(start, end, s)
    ensures InBox(start, end, Walk(start, end, s))
    decreases Dist(s, end)
  {
    if s.x == end.x && s.y == end.y {
    } else {
      StepKeepsReachable(start, end, s);
      StepAdvances(start, end, s);
      WalkInBox(start, end, Step(SetupOf(start, end), s));
    }
  }

  lemma {:induction false} WalkMajorAdvances(start: Point, end: Point, s: State)
    requires Reachable(start, end, s)
    ensures MajorAdvances(SetupOf(start, end), Point(s.x, s.y), end, Walk(start, end, s))
    decreases Dist(s, end)
  {
    if s.x == end.x && s.y == end.y {
    } else {
      StepKeepsReachable(start, end, s);
      StepAdvances(start, end, s);
      var k, t := SetupOf(start, end), Step(SetupOf(start, end), s);
      WalkMajorAdvances(start, end, t);
      assert Walk(start, end, s) == [Point(s.x, s.y)] + Walk(start, end, t);
      MajorAdvancesCons(k, Point(s.x, s.y), Point(t.x, t.y), end, Walk(start, end, t));
    }
  }

  /** Prepending the point one major-axis step before `first` keeps the
      major axis advancing. */
  lemma MajorAdvancesCons(k: Setup, p: Point, first: Point, end: Point, rest: seq<Point>)
    requires k.sx == 1 || k.sx == -1
    requires k.sy == 1 || k.sy == -1
    requires MajorAdvances(k, first, end, rest)
    requires if k.dx > k.dy then first.x == p.x + k.sx && Abs(end.x - first.x) + 1 == Abs(end.x - p.x)
             else first.y == p.y + k.sy && Abs(end.y - first.y) + 1 == Abs(end.y - p.y)
    ensures MajorAdvances(k, p, end, [p] + rest)
  {
    var path := [p] + rest;
    if k.dx > k.dy {
      forall i | 0 <= i < |path| ensures path[i].x == p.x + (if k.sx == 1 then i else -i) {
        if i > 0 {
          assert path[i] == rest[i - 1];
        }
      }
    } else {
      forall i | 0 <= i < |path| ensures path[i].y == p.y + (if k.sy == 1 then i else -i) {
        if i > 0 {
          assert path[i] == rest[i - 1];
        }
      }
    }
  }

  lemma WalkHasShape(start: Point, end: Point, s: State)
    requires Reachable(start, end, s)
    ensures WalkShape(start, end, Point(s.x, s.y), Walk(start, end, s))
  {
    WalkEnds(start, end, s);
    WalkUnitSteps(start, end, s);
    WalkInBox(start, end, s);
    WalkMajorAdvances(start, end, s);
  }

  /** The points draw_line visits, in order. */
  function LinePath(start: Point, end: Point): seq<Point> {
    InitialReachable(start, end);
    Walk(start, end, Initial(start, end))
  }

  /** draw_line starts at `start`, ends exactly at `end` (so its loop
      terminates), moves x by 0 or sx and y by 0 or sy on every pass, never
      leaves the box of the two endpoints, and plots max(dx, dy) + 1 points,
      one per position of the major axis. */
  lemma LinePathShape(start: Point, end: Point)
    ensures var k := SetupOf(start, end);
      && WalkShape(start, end, start, LinePath(start, end))
      && |LinePath(start, end)| == Max(k.dx, k.dy) + 1
  {
    InitialReachable(start, end);
    WalkHasShape(start, end, Initial(start, end));
  }

  lemma LinePathEnds(start: Point, end: Point)
    ensures start in LinePath(start, end) && end in LinePath(start, end)
  {
    LinePathShape(start, end);
    var path := LinePath(start, end);
    assert path[0] == start && path[|path| - 1] == end;
  }

  /** The i32 range in which none of draw_line's arithmetic overflows: the
      error term stays within [-dy, dx] (see `Reachable`), so every
      intermediate value is bounded by dx + dy. */
  predicate LineArithOk(start: Point, end: Point) {
    && InI32(start.x) && InI32(start.y) && InI32(end.x) && InI32(end.y)
    && Abs(end.x - start.x) + Abs(end.y - start.y) <= I32_MAX
  }

  /** draw_line. Only points on the canvas reach draw_pixel. */
  method DrawLine(buffer: seq<Byte>, size: Point, start: Point, end: Point, color: Color)
    returns (r: seq<Byte>, path: seq<Point>)
    requires CanvasFits(size)
    requires LineArithOk(start, end)
    ensures path == LinePath(start, end)
    ensures r == PlotClipped(buffer, size, path, color)
  {
    var k := SetupOf(start, end);
    var s := Initial(start, end);
    ghost var full := LinePath(start, end);
    InitialReachable(start, end);
    r := buffer;
    path := [];
    while true
      invariant Reachable(start, end, s)
      invariant path + Walk(start, end, s) == full
      invariant r == PlotClipped(buffer, size, path, color)
      decreases Dist(s, end)
    {
      var p := Point(s.x, s.y);
      PlotClippedSnoc(buffer, size, path, p, color);
      if InCanvas(size, p) {
        r := DrawPixel(r, size, p, color);
      }
      if p == end {
        path := path + [p];
        break;
      }
      WalkNext(start, end, s, path, full);
      path := path + [p];
      s := Step(k, s);
    }
  }

  /** One pass of the loop: the current point moves from the rest of the
      walk to the points visited, and the next state is reachable and
      closer to `end`. */
  lemma WalkNext(start: Point, end: Point, s: State, path: seq<Point>, full: seq<Point>)
    requires Reachable(start, end, s)
    requires Point(s.x, s.y) != end
    requires path + Walk(start, end, s) == full
    ensures var t := Step(SetupOf(start, end), s);
      && Reachable(start, end, t)
      && Dist(t, end) < Dist(s, end)
      && (path + [Point(s.x, s.y)]) + Walk(start, end, t) == full
  {
    StepKeepsReachable(start, end, s);
    StepAdvances(start, end, s);
  }

  /** Both endpoints of a line on the canvas are painted. */
  lemma LinePainted(buffer: seq<Byte>, size: Point, start: Point, end: Point, color: Color)
    requires CanvasFits(size)
    ensures var r := PlotClipped(buffer, size, LinePath(start, end), color);
      && (InCanvas(size, start) && Offset(size, start) + 4 <= |buffer| ==> PaintedAt(r, size, start, color))
      && (InCanvas(size, end) && Offset(size, end) + 4 <= |buffer| ==> PaintedAt(r, size, end, color))
  {
    LinePathEnds(start, end);
    var path := LinePath(start, end);
    if InCanvas(size, start) && Offset(size, start) + 4 <= |buffer| {
      PlotClippedPaints(buffer, size, path, color, start);
    }
    if InCanvas(size, end) && Offset(size, end) + 4 <= |buffer| {
      PlotClippedPaints(buffer, size, path, color, end);
    }
  }

  /** A horizontal line passes through every x between its endpoints. */
  lemma HorizontalLineCovers(start: Point, end: Point, x: int)
    requires start.y == end.y
    requires Between(x, start.x, end.x)
    ensures Point(x, start.y) in LinePath(start, end)
  {
    var path := LinePath(start, end);
    var k := SetupOf(start, end);
    LinePathShape(start, end);
    if k.dx > k.dy {
      var i := Abs(x - start.x);
      assert path[i].x == start.x + k.sx * i;
      assert path[i] == Point(x, start.y);
    } else {
      assert path[0] == Point(x, start.y);
    }
  }
}

=== FILE: pixel.dfy ===
/** The single pixel write every rasterizer goes through, and the effect of
    plotting a whole sequence of points.

    The canvas is a caller-owned RGBA8 byte buffer, row-major, four bytes per
    pixel. It is modelled as a sequence of bytes that each operation returns
    updated.
 */
module Pixel {
  import opened Geometry

  type Byte = b: int | 0 <= b < 0x100

  /** A packed `u32` colour. */
  type Color = c: int | 0 <= c < 0x1_0000_0000

  /** Byte offset of a pixel: four bytes per pixel, `size.x` pixels per row.
      Nothing compares `pos.x` with `size.x`, so an x past the right edge
      lands in the next row. */
  function Offset(size: Point, pos: Point): int {
    4 * (Mul(pos.y, size.x) + pos.x)
  }

  /** The offset arithmetic does not overflow: the product, the sum and the
      scaling stay in i32, and the offset is not -4, for which adding 4 to
      its `usize` image would overflow. */
  predicate OffsetFits(size: Point, pos: Point) {
    && InI32(Mul(pos.y, size.x))
    && InI32(Mul(pos.y, size.x) + pos.x)
    && InI32(Offset(size, pos))
    && Offset(size, pos) != -4
  }

  /** The four channel bytes, most significant first. */
  function ColorBytes(color: Color): (bs: seq<Byte>)
    ensures |bs| == 4
  {
    [color / 0x100_0000, (color / 0x1_0000) % 0x100, (color / 0x100) % 0x100, color % 0x100]
  }

  /** Reads four bytes back as a packed colour, first byte most significant. */
  function PackBytes(bs: seq<Byte>): Color
    requires |bs| == 4
  {
    var b0: int, b1: int, b2: int, b3: int := bs[0], bs[1], bs[2], bs[3];
    ((b0 * 0x100 + b1) * 0x100 + b2) * 0x100 + b3
  }

  /** The channel split loses nothing: the written bytes read back as the colour. */
  lemma ColorBytesRoundTrip(color: Color)
    ensures PackBytes(ColorBytes(color)) == color
  {
    var b0, b1, b2, b3 := color / 0x100_0000, (color / 0x1_0000) % 0x100, (color / 0x100) % 0x100, color % 0x100;
    assert color / 0x1_0000 == b0 * 0x100 + b1;
    assert color / 0x100 == (b0 * 0x100 + b1) * 0x100 + b2;
  }

  /** Different colours write different bytes. */
  lemma ColorBytesInjective(c1: Color, c2: Color)
    requires ColorBytes(c1) == ColorBytes(c2)
    ensures c1 == c2
  {
    ColorBytesRoundTrip(c1);
    ColorBytesRoundTrip(c2);
  }

  /** The four bytes at `pos` hold `color`. */
  ghost predicate PaintedAt(buffer: seq<Byte>, size: Point, pos: Point, color: Color) {
    var off := Offset(size, pos);
    0 <= off && off + 4 <= |buffer| && buffer[off..off + 4] == ColorBytes(color)
  }

  /** draw_pixel: writes the colour's four bytes when the span fits in the
      buffer, and leaves the buffer alone otherwise. */
  function DrawPixel(buffer: seq<Byte>, size: Point, pos: Point, color: Color): (r: seq<Byte>)
    requires OffsetFits(size, pos)
    ensures |r| == |buffer|
    ensures var off := Offset(size, pos);
      if 0 <= off && off + 4 <= |buffer| then
        && PaintedAt(r, size, pos, color)
        && forall i | 0 <= i < |r| && !(off <= i < off + 4) :: r[i] == buffer[i]
      else
        r == buffer
  {
    var off := Offset(size, pos);
    if 0 <= off && off + 4 <= |buffer| then buffer[..off] + ColorBytes(color) + buffer[off + 4..]
    else buffer
  }

  /** A pixel one past the right edge is the first pixel of the next row. */
  lemma DrawPixelWrapsRow(buffer: seq<Byte>, size: Point, x: int, y: int, color: Color)
    requires OffsetFits(size, Point(x + size.x, y)) && OffsetFits(size, Point(x, y + 1))
    ensures DrawPixel(buffer, size, Point(x + size.x, y), color) == DrawPixel(buffer, size, Point(x, y + 1), color)
  {
    MulIsProduct(y, size.x);
    MulIsProduct(y + 1, size.x);
  }

  /** Plots every point of `pts` in order, with no coordinate check. */
  function PlotAll(buffer: seq<Byte>, size: Point, pts: seq<Point>, color: Color): (r: seq<Byte>)
    requires forall i | 0 <= i < |pts| :: OffsetFits(size, pts[i])
    ensures |r| == |buffer|
    decreases |pts|
  {
    if |pts| == 0 then buffer
    else DrawPixel(PlotAll(buffer, size, pts[..|pts| - 1], color), size, pts[|pts| - 1], color)
  }

  /** Plotting `p` then `q` is plotting `p + q`. */
  lemma {:induction false} PlotAllAppend(buffer: seq<Byte>, size: Point, p: seq<Point>, q: seq<Point>, color: Color)
    requires forall i | 0 <= i < |p| :: OffsetFits(size, p[i])
    requires forall i | 0 <= i < |q| :: OffsetFits(size, q[i])
    ensures forall i | 0 <= i < |p + q| :: OffsetFits(size, (p + q)[i])
    ensures PlotAll(buffer, size, p + q, color) == PlotAll(PlotAll(buffer, size, p, color), size, q, color)
    decreases |q|
  {
    if |q| == 0 {
      assert p + q == p;
    } else {
      var q' := q[..|q| - 1];
      PlotAllAppend(buffer, size, p, q', color);
      assert (p + q)[..|p + q| - 1] == p + q';
      assert (p + q)[|p + q| - 1] == q[|q| - 1];
    }
  }

  /** Every plotted point whose span fits in the buffer ends up holding the colour. */
  lemma {:induction false} PlotAllPaints(buffer: seq<Byte>, size: Point, pts: seq<Point>, color: Color, pos: Point)
    requires forall i | 0 <= i < |pts| :: OffsetFits(size, pts[i])
    requires pos in pts
    requires 0 <= Offset(size, pos) && Offset(size, pos) + 4 <= |buffer|
    ensures PaintedAt(PlotAll(buffer, size, pts, color), size, pos, color)
    decreases |pts|
  {
    var last := pts[|pts| - 1];
    var init := pts[..|pts| - 1];
    var prev := PlotAll(buffer, size, init, color);
    var r := PlotAll(buffer, size, pts, color);
    assert r == DrawPixel(prev, size, last, color);
    var off, offLast := Offset(size, pos), Offset(size, last);
    if offLast == off {
    } else {
      assert pos in init by {
        assert pts == init + [last];
      }
      PlotAllPaints(buffer, size, init, color, pos);
      if 0 <= offLast && offLast + 4 <= |prev| {
        assert offLast + 4 <= off || off + 4 <= offLast;
        assert r[off..off + 4] == prev[off..off + 4];
      }
    }
  }

  /** A byte outside the span of every plotted point is left as it was. */
  lemma {:induction false} PlotAllFrame(buffer: seq<Byte>, size: Point, pts: seq<Point>, color: Color, i: int)
    requires forall j | 0 <= j < |pts| :: OffsetFits(size, pts[j])
    requires 0 <= i < |buffer|
    requires forall j | 0 <= j < |pts| :: !(Offset(size, pts[j]) <= i < Offset(size, pts[j]) + 4)
    ensures PlotAll(buffer, size, pts, color)[i] == buffer[i]
    decreases |pts|
  {
    if |pts| > 0 {
      PlotAllFrame(buffer, size, pts[..|pts| - 1], color, i);
    }
  }

  /** The point lies on the canvas: the only pixels draw_line passes on. */
  predicate InCanvas(size: Point, p: Point) {
    0 <= p.x < size.x && 0 <= p.y < size.y
  }

  /** Every on-canvas pixel offset fits in i32. */
  predicate CanvasFits(size: Point) {
    size.x <= 0 || size.y <= 0 || 4 * Mul(size.y, size.x) - 4 <= I32_MAX
  }

  lemma InCanvasOffsetFits(size: Point, p: Point)
    requires CanvasFits(size) && InCanvas(size, p)
    ensures OffsetFits(size, p)
    ensures 0 <= Offset(size, p) <= 4 * Mul(size.y, size.x) - 4
  {
    MulMonotone(p.y, size.y - 1, size.x);
  }

  /** The on-canvas points of `pts`, in order. */
  function Visible(size: Point, pts: seq<Point>): (vs: seq<Point>)
    ensures forall p :: p in vs <==> p in pts && InCanvas(size, p)
    decreases |pts|
  {
    if |pts| == 0 then []
    else
      var init := Visible(size, pts[..|pts| - 1]);
      assert pts == pts[..|pts| - 1] + [pts[|pts| - 1]];
      if InCanvas(size, pts[|pts| - 1]) then init + [pts[|pts| - 1]] else init
  }

  lemma {:induction false} VisibleAppend(size: Point, p: seq<Point>, q: seq<Point>)
    ensures Visible(size, p + q) == Visible(size, p) + Visible(size, q)
    decreases |q|
  {
    if |q| == 0 {
      assert p + q == p;
    } else {
      VisibleAppend(size, p, q[..|q| - 1]);
      assert (p + q)[..|p + q| - 1] == p + q[..|q| - 1];
    }
  }

  /** Plots the on-canvas points of `pts` in order and skips the rest, as
      draw_line does with the pixels of its walk. */
  function PlotClipped(buffer: seq<Byte>, size: Point, pts: seq<Point>, color: Color): (r: seq<Byte>)
    requires CanvasFits(size)
    ensures |r| == |buffer|
  {
    var vs := Visible(size, pts);
    forall i | 0 <= i < |vs| ensures OffsetFits(size, vs[i]) {
      InCanvasOffsetFits(size, vs[i]);
    }
    PlotAll(buffer, size, vs, color)
  }

  lemma PlotClippedAppend(buffer: seq<Byte>, size: Point, p: seq<Point>, q: seq<Point>, color: Color)
    requires CanvasFits(size)
    ensures PlotClipped(buffer, size, p + q, color) == PlotClipped(PlotClipped(buffer, size, p, color), size, q, color)
  {
    VisibleAppend(size, p, q);
    var vp, vq := Visible(size, p), Visible(size, q);
    forall i | 0 <= i < |vp| ensures OffsetFits(size, vp[i]) {
      InCanvasOffsetFits(size, vp[i]);
    }
    forall i | 0 <= i < |vq| ensures OffsetFits(size, vq[i]) {
      InCanvasOffsetFits(size, vq[i]);
    }
    PlotAllAppend(buffer, size, vp, vq, color);
  }

  /** Plotting one more point skips it when it is off the canvas and draws
      it otherwise: the coordinate test draw_line makes before each draw_pixel. */
  lemma PlotClippedSnoc(buffer: seq<Byte>, size: Point, pts: seq<Point>, p: Point, color: Color)
    requires CanvasFits(size)
    ensures InCanvas(size, p) ==> OffsetFits(size, p)
    ensures PlotClipped(buffer, size, pts + [p], color) ==
      var prev := PlotClipped(buffer, size, pts, color);
      if InCanvas(size, p) then DrawPixel(prev, size, p, color) else prev
  {
    PlotClippedAppend(buffer, size, pts, [p], color);
    if InCanvas(size, p) {
      InCanvasOffsetFits(size, p);
      assert Visible(size, [p]) == [p] by {
        assert [p][..0] == [];
      }
    } else {
      assert Visible(size, [p]) == [] by {
        assert [p][..0] == [];
      }
    }
  }

  /** Every on-canvas point of `pts` ends up holding the colour. */
  lemma PlotClippedPaints(buffer: seq<Byte>, size: Point, pts: seq<Point>, color: Color, pos: Point)
    requires CanvasFits(size)
    requires pos in pts && InCanvas(size, pos)
    requires Offset(size, pos) + 4 <= |buffer|
    ensures PaintedAt(PlotClipped(buffer, size, pts, color), size, pos, color)
  {
    var vs := Visible(size, pts);
    forall i | 0 <= i < |vs| ensures OffsetFits(size, vs[i]) {
      InCanvasOffsetFits(size, vs[i]);
    }
    InCanvasOffsetFits(size, pos);
    PlotAllPaints(buffer, size, vs, color, pos);
  }

  /** Only on-canvas points reach the buffer: a byte outside the span of
      every on-canvas point of `pts` is left as it was. */
  lemma PlotClippedFrame(buffer: seq<Byte>, size: Point, pts: seq<Point>, color: Color, i: int)
    requires CanvasFits(size)
    requires 0 <= i < |buffer|
    requires forall j | 0 <= j < |pts| && InCanvas(size, pts[j]) :: !(Offset(size, pts[j]) <= i < Offset(size, pts[j]) + 4)
    ensures PlotClipped(buffer, size, pts, color)[i] == buffer[i]
  {
    var vs := Visible(size, pts);
    forall j | 0 <= j < |vs| ensures OffsetFits(size, vs[j]) {
      InCanvasOffsetFits(size, vs[j]);
    }
    forall j | 0 <= j < |vs| ensures !(Offset(size, vs[j]) <= i < Offset(size, vs[j]) + 4) {
      assert vs[j] in pts;
    }
    PlotAllFrame(buffer, size, vs, color, i);
  }
}

=== FILE: rectangle.dfy ===
/** draw_filled_rectangle: a column-major fill of the half-open rectangle
    [pos.x, pos.x + w) x [pos.y, pos.y + h), drawn with no coordinate check.
 */
module Rectangle {
  import opened Geometry
  import opened Pixel

  /** The points (x, y) for y in [y0, y), in increasing y. */
  function Column(x: int, y0: int, y: int): seq<Point>
    decreases y - y0
  {
    if y <= y0 then [] else Column(x, y0, y - 1) + [Point(x, y - 1)]
  }

  /** The columns x in [x0, x), each running over [y0, y1). */
  function Columns(x0: int, x: int, y0: int, y1: int): seq<Point>
    decreases x - x0
  {
    if x <= x0 then [] else Columns(x0, x - 1, y0, y1) + Column(x - 1, y0, y1)
  }

  /** Everything draw_filled_rectangle draws, in order. */
  function RectPoints(pos: Point, extent: Point): seq<Point> {
    Columns(pos.x, pos.x + extent.x, pos.y, pos.y + extent.y)
  }

  /** `p` lies in the half-open rectangle at `pos` with the given extent. */
  predicate InRect(pos: Point, extent: Point, p: Point) {
    pos.x <= p.x < pos.x + extent.x && pos.y <= p.y < pos.y + extent.y
  }

  lemma {:induction false} ColumnShape(x: int, y0: int, y: int)
    ensures |Column(x, y0, y)| == if y <= y0 then 0 else y - y0
    ensures forall i | 0 <= i < |Column(x, y0, y)| :: Column(x, y0, y)[i] == Point(x, y0 + i)
    decreases y - y0
  {
    if y > y0 {
      ColumnShape(x, y0, y - 1);
    }
  }

  lemma {:induction false} ColumnsLength(x0: int, x: int, y0: int, y1: int)
    requires y0 <= y1
    ensures |Columns(x0, x, y0, y1)| == if x <= x0 then 0 else (x - x0) * (y1 - y0)
    decreases x - x0
  {
    if x > x0 {
      ColumnsLength(x0, x - 1, y0, y1);
      ColumnShape(x - 1, y0, y1);
      if x - 1 > x0 {
        assert (x - x0) * (y1 - y0) == (x - 1 - x0) * (y1 - y0) + (y1 - y0);
      }
    }
  }

  lemma {:induction false} ColumnsMembers(x0: int, x: int, y0: int, y1: int, p: Point)
    ensures p in Columns(x0, x, y0, y1) <==> x0 <= p.x < x && y0 <= p.y < y1
    decreases x - x0
  {
    if x > x0 {
      ColumnsMembers(x0, x - 1, y0, y1, p);
      ColumnShape(x - 1, y0, y1);
      if p.x == x - 1 && y0 <= p.y < y1 {
        assert Column(x - 1, y0, y1)[p.y - y0] == p;
      }
    }
  }

  /** No point appears twice. */
  ghost predicate Distinct(pts: seq<Point>) {
    forall i, j | 0 <= i < j < |pts| :: pts[i] != pts[j]
  }

  lemma {:induction false} ColumnsDistinct(x0: int, x: int, y0: int, y1: int)
    ensures Distinct(Columns(x0, x, y0, y1))
    decreases x - x0
  {
    if x > x0 {
      var left, col := Columns(x0, x - 1, y0, y1), Column(x - 1, y0, y1);
      ColumnsDistinct(x0, x - 1, y0, y1);
      ColumnShape(x - 1, y0, y1);
      forall i, j | 0 <= i < j < |left + col| ensures (left + col)[i] != (left + col)[j] {
        if j >= |left| && i < |left| {
          ColumnsMembers(x0, x - 1, y0, y1, left[i]);
        }
      }
    }
  }

  /** An extent that is not positive on both axes draws nothing; otherwise
      every point of the rectangle is drawn exactly once and nothing else is:
      w * h points, pairwise distinct, each in the rectangle and each point
      of the rectangle among them. */
  lemma RectExact(pos: Point, extent: Point, p: Point)
    ensures extent.x <= 0 || extent.y <= 0 ==> RectPoints(pos, extent) == []
    ensures extent.x > 0 && extent.y > 0 ==> |RectPoints(pos, extent)| == extent.x * extent.y
    ensures Distinct(RectPoints(pos, extent))
    ensures p in RectPoints(pos, extent) <==> InRect(pos, extent, p)
  {
    ColumnsMembers(pos.x, pos.x + extent.x, pos.y, pos.y + extent.y, p);
    ColumnsDistinct(pos.x, pos.x + extent.x, pos.y, pos.y + extent.y);
    if extent.x > 0 && extent.y > 0 {
      ColumnsLength(pos.x, pos.x + extent.x, pos.y, pos.y + extent.y);
    } else if |RectPoints(pos, extent)| > 0 {
      var q := RectPoints(pos, extent)[0];
      ColumnsMembers(pos.x, pos.x + extent.x, pos.y, pos.y + extent.y, q);
    }
  }

  /** Neither range end nor any pixel offset inside the rectangle leaves
      i32. The end of the y range is computed only inside the x loop, so
      only when that loop runs. */
  ghost predicate RectFits(size: Point, pos: Point, extent: Point) {
    && InI32(pos.x) && InI32(pos.y)
    && InI32(pos.x + extent.x)
    && (extent.x > 0 ==> InI32(pos.y + extent.y))
    && forall p: Point | InRect(pos, extent, p) :: OffsetFits(size, p)
  }

  lemma ColumnFits(size: Point, pos: Point, extent: Point, x: int)
    requires RectFits(size, pos, extent)
    requires pos.x <= x < pos.x + extent.x
    ensures forall y | pos.y <= y < pos.y + extent.y :: OffsetFits(size, Point(x, y))
  {
    assert forall y | pos.y <= y < pos.y + extent.y :: InRect(pos, extent, Point(x, y));
  }

  /** The inner loop of draw_filled_rectangle: draw_pixel at (x, y) for
      every y in [y0, y1). */
  method FillColumn(buffer: seq<Byte>, size: Point, x: int, y0: int, y1: int, color: Color)
    returns (r: seq<Byte>, col: seq<Point>)
    requires forall y | y0 <= y < y1 :: OffsetFits(size, Point(x, y))
    ensures col == Column(x, y0, y1)
    ensures forall i | 0 <= i < |col| :: OffsetFits(size, col[i])
    ensures r == PlotAll(buffer, size, col, color)
  {
    r := buffer;
    col := [];
    var y := y0;
    while y < y1
      invariant y == y0 || y0 <= y <= y1
      invariant col == Column(x, y0, y)
      invariant forall i | 0 <= i < |col| :: OffsetFits(size, col[i])
      invariant r == PlotAll(buffer, size, col, color)
    {
      var p := Point(x, y);
      assert (col + [p])[..|col|] == col;
      r := DrawPixel(r, size, p, color);
      col := col + [p];
      y := y + 1;
    }
  }

  /** draw_filled_rectangle: for every x in [pos.x, pos.x + w), for every y
      in [pos.y, pos.y + h), draw_pixel. */
  method DrawFilledRectangle(buffer: seq<Byte>, size: Point, pos: Point, extent: Point, color: Color)
    returns (r: seq<Byte>, plotted: seq<Point>)
    requires RectFits(size, pos, extent)
    ensures plotted == RectPoints(pos, extent)
    ensures forall i | 0 <= i < |plotted| :: OffsetFits(size, plotted[i])
    ensures r == PlotAll(buffer, size, plotted, color)
  {
    var xEnd, yEnd := pos.x + extent.x, pos.y + extent.y;
    r := buffer;
    plotted := [];
    var x := pos.x;
    while x < xEnd
      invariant x == pos.x || pos.x <= x <= xEnd
      invariant plotted == Columns(pos.x, x, pos.y, yEnd)
      invariant forall i | 0 <= i < |plotted| :: OffsetFits(size, plotted[i])
      invariant r == PlotAll(buffer, size, plotted, color)
    {
      ColumnFits(size, pos, extent, x);
      var r', col := FillColumn(r, size, x, pos.y, yEnd, color);
      PlotAllAppend(buffer, size, plotted, col, color);
      r := r';
      plotted := plotted + col;
      x := x + 1;
    }
  }
}

=== FILE: score.dfy ===
/** The scoring function `a` of the program entry point: the input text is
    split into lines, each line must be one of nine three-character rounds
    ("A X" .. "C Z") with a fixed score, and the scores are added up as an
    i32. Any other line panics with that line as the message; a sum past the
    i32 range panics as an arithmetic overflow (debug build).
 */
module Score {
  import opened Geometry

  datatype Option<T> = None | Some(value: T)

  /** What `a` does with an input: returns the total, or panics on the first
      unrecognised line, or on an overflowing running sum. */
  datatype Outcome = Ok(total: int) | BadLine(line: string) | Overflow

  /** The fixed input of the program and of its test. */
  const INPUT: string := "A Y\nB X\nC Z"

  // ---------------------------------------------------------------------
  // str::lines

  /** Position of the first '\n' of `s`, or |s| when there is none. */
  function LineEnd(s: string): (n: nat)
    ensures n <= |s|
    ensures n < |s| ==> s[n] == '\n'
    ensures forall i | 0 <= i < n :: s[i] != '\n'
  {
    if s == [] || s[0] == '\n' then 0 else 1 + LineEnd(s[1..])
  }

  /** A line ended by "\r\n" loses the '\r' along with the '\n'. */
  function DropCr(line: string): string {
    if |line| > 0 && line[|line| - 1] == '\r' then line[..|line| - 1] else line
  }

  /** str::lines: the pieces of `s` between line breaks, where a break is
      '\n' or "\r\n"; the text after the last '\n' is a line only when it is
      not empty, and keeps a '\r' it may end with. */
  function Lines(s: string): seq<string>
    decreases |s|
  {
    if s == [] then []
    else
      var n := LineEnd(s);
      if n == |s| then [s] else [DropCr(s[..n])] + Lines(s[n + 1..])
  }

  /** No line contains a '\n'. */
  lemma {:induction false} LinesHaveNoBreaks(s: string)
    ensures forall l | l in Lines(s) :: '\n' !in l
    decreases |s|
  {
    if s != [] {
      var n := LineEnd(s);
      if n < |s| {
        LinesHaveNoBreaks(s[n + 1..]);
        assert '\n' !in s[..n];
      }
    }
  }

  /** `s` is the lines joined with '\n': nothing is lost but the line
      breaks, when no line ends with '\r'. */
  function JoinLines(ls: seq<string>): string {
    if ls == [] then [] else if |ls| == 1 then ls[0] else ls[0] + "\n" + JoinLines(ls[1..])
  }

  /** Joining lines with '\n' and splitting the text again gives the lines
      back, as long as none holds a '\n', none ends with '\r', and the last
      is not empty (an empty last line leaves a trailing '\n', which is not
      a line of its own). */
  lemma {:induction false} LinesJoinRoundTrip(ls: seq<string>)
    requires forall i | 0 <= i < |ls| :: '\n' !in ls[i] && DropCr(ls[i]) == ls[i]
    requires ls != [] ==> ls[|ls| - 1] != []
    ensures Lines(JoinLines(ls)) == ls
  {
    if |ls| == 1 {
      assert LineEnd(ls[0]) == |ls[0]| by { NoBreakLineEnd(ls[0]); }
    } else if |ls| > 1 {
      var rest := JoinLines(ls[1..]);
      var s := ls[0] + "\n" + rest;
      NoBreakLineEnd(ls[0]);
      assert LineEnd(s) == |ls[0]| by {
        assert s == ls[0] + ("\n" + rest);
        assert LineEnd("\n" + rest) == 0;
        PrefixLineEnd(ls[0], "\n" + rest);
      }
      assert s[..|ls[0]|] == ls[0];
      assert s[|ls[0]| + 1..] == rest;
      LinesJoinRoundTrip(ls[1..]);
    }
  }

  lemma NoBreakLineEnd(s: string)
    requires '\n' !in s
    ensures LineEnd(s) == |s|
  {
    assert forall i | 0 <= i < |s| :: s[i] != '\n' by {
      forall i | 0 <= i < |s| ensures s[i] != '\n' {
        assert s[i] in s;
      }
    }
  }

  lemma {:induction false} PrefixLineEnd(a: string, b: string)
    requires '\n' !in a
    ensures LineEnd(a + b) == |a| + LineEnd(b)
    decreases |a|
  {
    if a != [] {
      assert a[0] in a;
      assert (a + b)[1..] == a[1..] + b;
      assert forall c | c in a[1..] :: c in a;
      PrefixLineEnd(a[1..], b);
    } else {
      assert a + b == b;
    }
  }

  /** Splitting `a + "\n" + b` gives the lines of `a` then those of `b`,
      when `a` is not empty and ends with neither '\n' nor '\r': an `a`
      ending in '\n' would leave an empty line between the two. */
  lemma {:induction false} LinesAppend(a: string, b: string)
    requires a != [] && a[|a| - 1] != '\n' && a[|a| - 1] != '\r'
    ensures Lines(a + "\n" + b) == Lines(a) + Lines(b)
    decreases |a|
  {
    var s := a + "\n" + b;
    var n := LineEnd(a);
    assert s[..|a|] == a;
    if n == |a| {
      assert LineEnd(s) == |a| by {
        assert forall i | 0 <= i < |a| :: s[i] == a[i];
        LineEndAt(s, |a|);
      }
      assert s[|a| + 1..] == b;
      assert DropCr(a) == a;
    } else {
      assert LineEnd(s) == n by {
        assert forall i | 0 <= i <= n :: s[i] == a[i];
        LineEndAt(s, n);
      }
      assert s[..n] == a[..n];
      var a' := a[n + 1..];
      assert n != |a| - 1;
      assert s[n + 1..] == a' + "\n" + b;
      assert a'[|a'| - 1] == a[|a| - 1];
      LinesAppend(a', b);
    }
  }

  /** The first '\n' of `s` is at `n` when none comes before it. */
  lemma {:induction false} LineEndAt(s: string, n: nat)
    requires n < |s| && s[n] == '\n'
    requires forall i | 0 <= i < n :: s[i] != '\n'
    ensures LineEnd(s) == n
    decreases n
  {
    if n > 0 {
      LineEndAt(s[1..], n - 1);
    }
  }

  // ---------------------------------------------------------------------
  // The table

  /** The match of `a`: the score of a recognised line, None for any other
      line (the panicking arm). A line equals the literal "A X" exactly when
      it is the three characters 'A', ' ', 'X'; the arms are compared that
      way, in the order of the source. */
  function LineScore(line: string): Option<int> {
    if |line| != 3 || line[1] != ' ' then None
    else if line[0] == 'A' then
      (if line[2] == 'X' then Some(1 + 3)
       else if line[2] == 'Y' then Some(2 + 6)
       else if line[2] == 'Z' then Some(3)
       else None)
    else if line[0] == 'B' then
      (if line[2] == 'X' then Some(1)
       else if line[2] == 'Y' then Some(2 + 3)
       else if line[2] == 'Z' then Some(3 + 6)
       else None)
    else if line[0] == 'C' then
      (if line[2] == 'X' then Some(1 + 6)
       else if line[2] == 'Y' then Some(2)
       else if line[2] == 'Z' then Some(3 + 3)
       else None)
    else None
  }

  /** The nine recognised lines. */
  const ROUNDS: seq<string> := ["A X", "A Y", "A Z", "B X", "B Y", "B Z", "C X", "C Y", "C Z"]

  /** Exactly the nine rounds score; they score 1 .. 9, each a different
      value, so the table is a permutation of 1 .. 9. */
  lemma TableIsPermutation(line: string)
    ensures LineScore(line).Some? <==> line in ROUNDS
    ensures forall i | 0 <= i < 9 :: LineScore(ROUNDS[i]).Some? && 1 <= LineScore(ROUNDS[i]).value <= 9
    ensures forall i, j | 0 <= i < j < 9 :: LineScore(ROUNDS[i]) != LineScore(ROUNDS[j])
    ensures forall v | 1 <= v <= 9 :: exists i | 0 <= i < 9 :: LineScore(ROUNDS[i]) == Some(v)
  {
    assert LineScore(ROUNDS[0]) == Some(4);
    assert LineScore(ROUNDS[1]) == Some(8);
    assert LineScore(ROUNDS[2]) == Some(3);
    assert LineScore(ROUNDS[3]) == Some(1);
    assert LineScore(ROUNDS[4]) == Some(5);
    assert LineScore(ROUNDS[5]) == Some(9);
    assert LineScore(ROUNDS[6]) == Some(7);
    assert LineScore(ROUNDS[7]) == Some(2);
    assert LineScore(ROUNDS[8]) == Some(6);
    if LineScore(line).Some? {
      var o := if line[0] == 'A' then 0 else if line[0] == 'B' then 1 else 2;
      var m := if line[2] == 'X' then 0 else if line[2] == 'Y' then 1 else 2;
      assert line == [line[0], ' ', line[2]];
      assert ROUNDS[3 * o + m] == line;
    }
  }

  /** Index 0 .. 2 of `c` in `letters`, or -1. */
  function LetterIndex(letters: string, c: char): int
    requires |letters| == 3
  {
    if c == letters[0] then 0 else if c == letters[1] then 1 else if c == letters[2] then 2 else -1
  }

  /** The rule behind the table: "O M" with O in A, B, C and M in X, Y, Z
      (each indexed 0 .. 2) scores M + 1 for the choice plus 3 times
      (M - O + 1) mod 3 for the outcome; any other line does not score. */
  function RuleScore(line: string): Option<int> {
    if |line| == 3 && line[1] == ' '
       && LetterIndex("ABC", line[0]) >= 0 && LetterIndex("XYZ", line[2]) >= 0
    then
      var o, m := LetterIndex("ABC", line[0]), LetterIndex("XYZ", line[2]);
      Some((m + 1) + 3 * ((m - o + 1) % 3))
    else None
  }

  /** The table of `a` is exactly the rule, on every string. */
  lemma LineScoreIsRule(line: string)
    ensures LineScore(line) == RuleScore(line)
  {
    if |line| == 3 && line[1] == ' '
       && LetterIndex("ABC", line[0]) >= 0 && LetterIndex("XYZ", line[2]) >= 0 {
      assert line == [line[0], ' ', line[2]];
    }
  }

  // ---------------------------------------------------------------------
  // The sum

  /** The running i32 sum over `ls` from `acc`: each line is scored in turn,
      the first unrecognised line panics, and so does a sum past i32. */
  function SumFrom(acc: int, ls: seq<string>): Outcome
    decreases |ls|
  {
    if ls == [] then Ok(acc)
    else match LineScore(ls[0])
      case None => BadLine(ls[0])
      case Some(v) => if acc + v > I32_MAX then Overflow else SumFrom(acc + v, ls[1..])
  }

  /** `a`: the sum of the scores of the lines of `input`. */
  function Score(input: string): Outcome {
    SumFrom(0, Lines(input))
  }

  /** The program's input scores 15, as its test expects. */
  lemma ScoreOfInput()
    ensures Score(INPUT) == Ok(15)
  {
    InputLines();
    InputRounds();
    var ls := ["A Y", "B X", "C Z"];
    assert ls[1..] == ["B X", "C Z"] && ls[1..][1..] == ["C Z"] && ls[1..][1..][1..] == [];
  }

  /** The three rounds of the program's input score 8, 1 and 6. */
  lemma InputRounds()
    ensures LineScore("A Y") == Some(8)
    ensures LineScore("B X") == Some(1)
    ensures LineScore("C Z") == Some(6)
  {
  }

  /** The program's input is three lines. */
  lemma InputLines()
    ensures Lines(INPUT) == ["A Y", "B X", "C Z"]
  {
    var ls := ["A Y", "B X", "C Z"];
    assert JoinLines(ls) == INPUT;
    LinesJoinRoundTrip(ls);
  }

  /** A text with no '\n' in it is one line, as it is. */
  lemma OneLine(s: string)
    requires s != [] && '\n' !in s
    ensures Lines(s) == [s]
  {
    NoBreakLineEnd(s);
  }

  /** Every line is one of the nine rounds. */
  predicate AllRecognised(ls: seq<string>) {
    forall i | 0 <= i < |ls| :: LineScore(ls[i]).Some?
  }

  /** The plain sum of the scores of recognised lines. */
  function Total(ls: seq<string>): int
    requires AllRecognised(ls)
  {
    if ls == [] then 0 else LineScore(ls[0]).value + Total(ls[1..])
  }

  /** n recognised lines total between n and 9 n. */
  lemma {:induction false} TotalBounds(ls: seq<string>)
    requires AllRecognised(ls)
    ensures |ls| <= Total(ls) <= 9 * |ls|
  {
    if ls != [] {
      TableIsPermutation(ls[0]);
      var i :| 0 <= i < 9 && ROUNDS[i] == ls[0];
      TotalBounds(ls[1..]);
    }
  }

  /** On recognised lines the running sum gives the plain total, or panics
      with an overflow exactly when the total leaves i32 (all scores are
      positive, so the running sum only grows). */
  lemma {:induction false} SumFromRecognised(acc: int, ls: seq<string>)
    requires AllRecognised(ls) && acc <= I32_MAX
    ensures SumFrom(acc, ls) == if acc + Total(ls) <= I32_MAX then Ok(acc + Total(ls)) else Overflow
    decreases |ls|
  {
    if ls != [] {
      TotalBounds(ls[1..]);
      TableIsPermutation(ls[0]);
      var i :| 0 <= i < 9 && ROUNDS[i] == ls[0];
      if acc + LineScore(ls[0]).value <= I32_MAX {
        SumFromRecognised(acc + LineScore(ls[0]).value, ls[1..]);
      }
    }
  }

  /** A panic names a line that is there and unrecognised, and comes only
      from the first such line. */
  lemma {:induction false} SumFromBadLine(acc: int, ls: seq<string>, line: string)
    requires SumFrom(acc, ls) == BadLine(line)
    ensures exists i | 0 <= i < |ls| ::
      ls[i] == line && LineScore(line).None? && AllRecognised(ls[..i])
    decreases |ls|
  {
    if LineScore(ls[0]).Some? {
      SumFromBadLine(acc + LineScore(ls[0]).value, ls[1..], line);
      var i :| 0 <= i < |ls[1..]| && ls[1..][i] == line && LineScore(line).None? && AllRecognised(ls[1..][..i]);
      assert ls[..i + 1] == [ls[0]] + ls[1..][..i];
    } else {
      assert ls[..0] == [];
    }
  }

  /** `a` returns exactly when every line is recognised and the total fits
      in i32, and then returns that total; a panic on a line names the first
      unrecognised line of the input. */
  lemma ScoreOk(input: string)
    ensures Score(input).Ok? <==> AllRecognised(Lines(input)) && Total(Lines(input)) <= I32_MAX
    ensures Score(input).Ok? ==> Score(input).total == Total(Lines(input))
    ensures Score(input).BadLine? ==>
      exists i | 0 <= i < |Lines(input)| ::
        Lines(input)[i] == Score(input).line && LineScore(Score(input).line).None? && AllRecognised(Lines(input)[..i])
  {
    var ls := Lines(input);
    if AllRecognised(ls) {
      SumFromRecognised(0, ls);
    } else if Score(input).Ok? {
      assert false by { SumFromOkRecognised(0, ls); }
    }
    if Score(input).BadLine? {
      SumFromBadLine(0, ls, Score(input).line);
    }
  }

  lemma {:induction false} SumFromOkRecognised(acc: int, ls: seq<string>)
    requires SumFrom(acc, ls).Ok?
    ensures AllRecognised(ls)
    decreases |ls|
  {
    if ls != [] {
      SumFromOkRecognised(acc + LineScore(ls[0]).value, ls[1..]);
    }
  }

  /** Empty input scores 0. */
  lemma ScoreEmpty()
    ensures Score("") == Ok(0)
  {
  }

  /** Two inputs joined with '\n' score the sum of their scores, when the
      first does not already end with a line break and the sum fits in i32. */
  lemma ScoreAppend(a: string, b: string)
    requires a != [] && a[|a| - 1] != '\n'
    requires Score(a).Ok? && Score(b).Ok?
    requires Score(a).total + Score(b).total <= I32_MAX
    ensures Score(a + "\n" + b) == Ok(Score(a).total + Score(b).total)
  {
    ScoreOk(a);
    ScoreOk(b);
    var la := Lines(a);
    LastLine(a);
    LinesAppend(a, b);
    TotalAppend(la, Lines(b));
    ScoreOk(a + "\n" + b);
  }

  /** The last line of a text not ending in '\n' is the text's tail, '\r'
      included; so a text whose lines all score does not end with '\r'. */
  lemma {:induction false} LastLine(s: string)
    requires s != [] && s[|s| - 1] != '\n'
    requires AllRecognised(Lines(s))
    ensures s[|s| - 1] != '\r'
    decreases |s|
  {
    var n := LineEnd(s);
    if n == |s| {
      assert Lines(s) == [s];
      assert LineScore(Lines(s)[0]).Some?;
      TableIsPermutation(s);
      var i :| 0 <= i < 9 && ROUNDS[i] == s;
    } else {
      var rest := s[n + 1..];
      assert rest != [];
      assert rest[|rest| - 1] == s[|s| - 1];
      assert Lines(s) == [DropCr(s[..n])] + Lines(rest);
      assert forall i | 0 <= i < |Lines(rest)| :: Lines(rest)[i] == Lines(s)[i + 1];
      LastLine(rest);
    }
  }

  lemma {:induction false} TotalAppend(p: seq<string>, q: seq<string>)
    requires AllRecognised(p) && AllRecognised(q)
    ensures AllRecognised(p + q)
    ensures Total(p + q) == Total(p) + Total(q)
    decreases |p|
  {
    if p != [] {
      assert (p + q)[1..] == p[1..] + q;
      TotalAppend(p[1..], q);
    } else {
      assert p + q == q;
    }
  }

  /** An interior empty line is a panic naming the empty line. */
  lemma ScoreRejectsEmptyLine()
    ensures Score("A X\n\nB Y") == BadLine("")
  {
    var ls := ["A X", "", "B Y"];
    assert JoinLines(ls) == "A X\n\nB Y";
    LinesJoinRoundTrip(ls);
    assert LineScore("A X") == Some(4);
    assert ls[1..] == ["", "B Y"];
  }

  /** A doubled space, a trailing space and lower case are each a panic
      naming the offending line. */
  lemma ScoreRejectsMalformed()
    ensures Score("A  X") == BadLine("A  X")
    ensures Score("A X ") == BadLine("A X ")
    ensures Score("a x") == BadLine("a x")
  {
    OneLine("A  X");
    OneLine("A X ");
    OneLine("a x");
  }
}

=== FILE: sort.dfy ===
/** sort_points: orders three points by y with three compare-and-swaps,
    swapping only on a strict `>`.
 */
module PointSort {
  import opened Geometry

  /** The pair in order by y, swapped only when the first lies strictly
      lower on the screen (larger y). */
  function Order(p: Point, q: Point): (r: (Point, Point))
    ensures r.0.y <= r.1.y
    ensures multiset{r.0, r.1} == multiset{p, q}
    ensures p.y <= q.y ==> r == (p, q)
  {
    if p.y > q.y then (q, p) else (p, q)
  }

  /** sort_points: swap slots 0 and 1, then 1 and 2, then 0 and 1 again,
      each only when out of order. */
  function SortPoints(a: Point, b: Point, c: Point): (r: (Point, Point, Point))
    ensures r.0.y <= r.1.y <= r.2.y
  {
    var (a1, b1) := Order(a, b);
    var (b2, c2) := Order(b1, c);
    var (a3, b3) := Order(a1, b2);
    (a3, b3, c2)
  }

  /** sort_points returns its three inputs, rearranged. */
  lemma SortPointsPermutes(a: Point, b: Point, c: Point)
    ensures var r := SortPoints(a, b, c);
      multiset{r.0, r.1, r.2} == multiset{a, b, c}
  {
    var r := SortPoints(a, b, c);
    if a.y <= b.y {
      if b.y <= c.y {
        assert r == (a, b, c);
      } else if a.y <= c.y {
        assert r == (a, c, b);
      } else {
        assert r == (c, a, b);
      }
    } else {
      if a.y <= c.y {
        assert r == (b, a, c);
      } else if b.y <= c.y {
        assert r == (b, c, a);
      } else {
        assert r == (c, b, a);
      }
    }
  }

  /** `pts[j]` comes before `pts[i]` in a stable sort by y: it lies higher,
      or at the same height and earlier in the input. */
  predicate Precedes(pts: seq<Point>, j: int, i: int)
    requires 0 <= i < |pts| && 0 <= j < |pts|
  {
    pts[j].y < pts[i].y || (pts[j].y == pts[i].y && j < i)
  }

  /** The position a stable sort gives `pts[i]`: how many of the three points
      precede it. */
  function Rank(pts: seq<Point>, i: int): int
    requires |pts| == 3 && 0 <= i < 3
  {
    (if Precedes(pts, 0, i) then 1 else 0)
    + (if Precedes(pts, 1, i) then 1 else 0)
    + (if Precedes(pts, 2, i) then 1 else 0)
  }

  /** The ranks of the three inputs are 0, 1 and 2 in some order. */
  lemma RankIsPermutation(pts: seq<Point>)
    requires |pts| == 3
    ensures forall i | 0 <= i < 3 :: 0 <= Rank(pts, i) < 3
    ensures forall i, j | 0 <= i < j < 3 :: Rank(pts, i) != Rank(pts, j)
  {
  }

  /** sort_points is the stable sort by y: every input lands at its rank, so
      points of equal y keep their input order. */
  lemma SortPointsStable(a: Point, b: Point, c: Point)
    ensures var r := SortPoints(a, b, c);
      var pts, out := [a, b, c], [r.0, r.1, r.2];
      forall i | 0 <= i < 3 :: out[Rank(pts, i)] == pts[i]
  {
    var pts := [a, b, c];
    var r := SortPoints(a, b, c);
    var out := [r.0, r.1, r.2];
    forall i | 0 <= i < 3 ensures 0 <= Rank(pts, i) < 3 && out[Rank(pts, i)] == pts[i] {
      if a.y <= b.y {
        if b.y <= c.y {
          assert out == [a, b, c];
        } else if a.y <= c.y {
          assert out == [a, c, b];
        } else {
          assert out == [c, a, b];
        }
      } else {
        if a.y <= c.y {
          assert out == [b, a, c];
        } else if b.y <= c.y {
          assert out == [b, c, a];
        } else {
          assert out == [c, b, a];
        }
      }
    }
  }
}

=== FILE: spline.dfy ===
/** The control schedule of draw_uniform_cubic_b_spline. With n control
    points and n >= 4 there are n - 3 windows (four consecutive control
    points each), each sampled 32 times; every sample after the first of its
    window is joined to the one before it by draw_line. Where a sample lands
    is f32 polynomial arithmetic that is not part of this model: it enters as
    an arbitrary function `sample(window, k)`.
 */
module Spline {
  import opened Geometry
  import opened Pixel
  import opened Line

  /** Samples per window: `t` runs over 0..32. */
  const SAMPLES: nat := 32

  /** Sample `k` of window `window`, i.e. t = k / 32 on control points
      window .. window + 3. */
  datatype Sample = Sample(window: nat, k: nat)

  /** A draw_line call from the position of sample `from` to that of `to`. */
  datatype Join = Join(from: Sample, to: Sample)

  type Sampler = (nat, nat) -> Point

  function At(sample: Sampler, s: Sample): Point {
    sample(s.window, s.k)
  }

  /** The joins of window `w` made while its samples 0 .. t - 1 are taken:
      each sample after the first, to the one before it. */
  function WindowJoins(w: nat, t: nat): seq<Join>
  {
    seq(if t <= 1 then 0 else t - 1, i requires i >= 0 => Join(Sample(w, i), Sample(w, i + 1)))
  }

  /** The joins of windows w .. c - 1, in drawing order. */
  function WindowsFrom(w: nat, c: nat): seq<Join>
    decreases c - w
  {
    if w >= c then [] else WindowJoins(w, SAMPLES) + WindowsFrom(w + 1, c)
  }

  /** Every draw_line call the spline makes with `n` control points, in
      order; nothing at all below four points. */
  function SplineJoins(n: nat): seq<Join> {
    if n < 4 then [] else WindowsFrom(0, n - 3)
  }

  /** The i-th join of the schedule links samples i % 31 and i % 31 + 1 of
      window i / 31. */
  function NthJoin(i: nat): Join {
    Join(Sample(i / 31, i % 31), Sample(i / 31, i % 31 + 1))
  }

  lemma {:induction false} WindowsFromShape(w: nat, c: nat)
    requires w <= c
    ensures |WindowsFrom(w, c)| == 31 * (c - w)
    ensures forall i: nat | i < |WindowsFrom(w, c)| :: WindowsFrom(w, c)[i] == NthJoin(31 * w + i)
    decreases c - w
  {
    if w < c {
      WindowsFromShape(w + 1, c);
      var first, rest := WindowJoins(w, SAMPLES), WindowsFrom(w + 1, c);
      forall i: nat | i < |first + rest| ensures (first + rest)[i] == NthJoin(31 * w + i) {
        if i < 31 {
          assert (31 * w + i) / 31 == w && (31 * w + i) % 31 == i;
        } else {
          assert 31 * (w + 1) + (i - 31) == 31 * w + i;
        }
      }
    }
  }

  /** With fewer than four control points the spline draws nothing; otherwise
      it makes 31 draw_line calls per window, n - 3 windows in order, the
      i-th joining samples i % 31 and i % 31 + 1 of window i / 31. */
  lemma SplineJoinsShape(n: nat)
    ensures n < 4 ==> SplineJoins(n) == []
    ensures n >= 4 ==> |SplineJoins(n)| == 31 * (n - 3)
    ensures forall i: nat | i < |SplineJoins(n)| :: SplineJoins(n)[i] == NthJoin(i)
  {
    if n >= 4 {
      WindowsFromShape(0, n - 3);
    }
  }

  /** A join is scheduled exactly when it links two consecutive samples of
      the same window, among the n - 3 windows. */
  lemma SplineJoinsMembers(n: nat, j: Join)
    ensures j in SplineJoins(n) <==>
      && n >= 4
      && j.from.window == j.to.window < n - 3
      && j.to.k == j.from.k + 1 < SAMPLES
  {
    SplineJoinsShape(n);
    var js := SplineJoins(n);
    if n >= 4 && j.from.window == j.to.window < n - 3 && j.to.k == j.from.k + 1 < SAMPLES {
      var i: nat := 31 * j.from.window + j.from.k;
      assert i / 31 == j.from.window && i % 31 == j.from.k;
      assert js[i] == j;
    }
    if j in js {
      var i :| 0 <= i < |js| && js[i] == j;
      assert js[i] == NthJoin(i);
    }
  }

  /** The last sample of a window is never joined to the first of the next. */
  lemma NoCrossWindowJoin(n: nat, w: nat)
    ensures Join(Sample(w, SAMPLES - 1), Sample(w + 1, 0)) !in SplineJoins(n)
  {
    SplineJoinsMembers(n, Join(Sample(w, SAMPLES - 1), Sample(w + 1, 0)));
  }

  /** The pixels draw_line visits for one join. */
  function Segment(sample: Sampler, j: Join): seq<Point> {
    LinePath(At(sample, j.from), At(sample, j.to))
  }

  /** The pixels visited by a run of joins, in order. */
  function SplinePoints(sample: Sampler, joins: seq<Join>): seq<Point>
  {
    if joins == [] then []
    else SplinePoints(sample, joins[..|joins| - 1]) + Segment(sample, joins[|joins| - 1])
  }

  lemma {:induction false} SegmentIn(sample: Sampler, joins: seq<Join>, i: nat, p: Point)
    requires i < |joins| && p in Segment(sample, joins[i])
    ensures p in SplinePoints(sample, joins)
  {
    var init := joins[..|joins| - 1];
    if i < |joins| - 1 {
      assert joins[i] == init[i];
      SegmentIn(sample, init, i, p);
    }
  }

  /** Every sample of every window lies on the drawn curve (the first and
      last samples of a window as ends of its first and last joins). */
  lemma SplineCoversSamples(n: nat, sample: Sampler, s: Sample)
    requires n >= 4 && s.window < n - 3 && s.k < SAMPLES
    ensures At(sample, s) in SplinePoints(sample, SplineJoins(n))
  {
    var j := if s.k == 0 then Join(s, Sample(s.window, 1)) else Join(Sample(s.window, s.k - 1), s);
    SplineJoinsMembers(n, j);
    var js := SplineJoins(n);
    var i :| 0 <= i < |js| && js[i] == j;
    LinePathEnds(At(sample, j.from), At(sample, j.to));
    SegmentIn(sample, js, i, At(sample, s));
  }

  /** draw_line's arithmetic stays in i32 on the join that ends at sample
      `k` of window `w`. */
  predicate JoinFits(sample: Sampler, w: nat, k: nat)
    requires k >= 1
  {
    LineArithOk(sample(w, k - 1), sample(w, k))
  }

  /** JoinFits for every join of the n - 3 windows. */
  predicate SamplesFit(n: nat, sample: Sampler) {
    forall w: nat, k: nat | w + 3 < n && 1 <= k < SAMPLES :: JoinFits(sample, w, k)
  }

  lemma WindowFits(n: nat, sample: Sampler, w: nat)
    requires SamplesFit(n, sample) && w + 3 < n
    ensures forall k: nat | 1 <= k < SAMPLES :: JoinFits(sample, w, k)
  {
  }

  lemma {:induction false} SplinePointsAppend(sample: Sampler, a: seq<Join>, b: seq<Join>)
    ensures SplinePoints(sample, a + b) == SplinePoints(sample, a) + SplinePoints(sample, b)
    decreases |b|
  {
    if b != [] {
      var init := b[..|b| - 1];
      assert (a + b)[..|a + b| - 1] == a + init;
      SplinePointsAppend(sample, a, init);
    } else {
      assert a + b == a;
    }
  }

  /** One draw_line call of the inner loop extends the joins and the drawn
      pixels by the next join of the window. */
  lemma WindowNext(sample: Sampler, w: nat, k: nat, joins: seq<Join>)
    requires 1 <= k && joins == WindowJoins(w, k)
    ensures var j := Join(Sample(w, k - 1), Sample(w, k));
      && WindowJoins(w, k + 1) == joins + [j]
      && SplinePoints(sample, joins + [j]) == SplinePoints(sample, joins) + Segment(sample, j)
  {
    var j := Join(Sample(w, k - 1), Sample(w, k));
    assert WindowJoins(w, k + 1) == joins + [j];
    assert (joins + [j])[..|joins|] == joins;
  }

  /** The inner loop of draw_uniform_cubic_b_spline over window `w`: the
      position of sample t is computed for t = 0 .. 31 and, unless t is 0,
      joined to the previous position. `prev` is the position carried in from
      the window before, which is overwritten before it is used. */
  method DrawWindow(buffer: seq<Byte>, size: Point, sample: Sampler, color: Color, w: nat, prev: Point)
    returns (r: seq<Byte>, joins: seq<Join>, last: Point)
    requires CanvasFits(size)
    requires forall k: nat | 1 <= k < SAMPLES :: JoinFits(sample, w, k)
    ensures joins == WindowJoins(w, SAMPLES)
    ensures r == PlotClipped(buffer, size, SplinePoints(sample, joins), color)
    ensures last == sample(w, SAMPLES - 1)
  {
    r, joins, last := buffer, [], prev;
    var k := 0;
    while k < SAMPLES
      invariant 0 <= k <= SAMPLES
      invariant joins == WindowJoins(w, k)
      invariant k > 0 ==> last == sample(w, k - 1)
      invariant r == PlotClipped(buffer, size, SplinePoints(sample, joins), color)
    {
      var pos := sample(w, k);
      if k > 0 {
        var j := Join(Sample(w, k - 1), Sample(w, k));
        assert JoinFits(sample, w, k);
        WindowNext(sample, w, k, joins);
        PlotClippedAppend(buffer, size, SplinePoints(sample, joins), Segment(sample, j), color);
        var path;
        r, path := DrawLine(r, size, last, pos, color);
        joins := joins + [j];
      }
      last := pos;
      k := k + 1;
    }
  }

  /** Window `w`'s joins come next in the schedule of windows w .. c - 1. */
  lemma WindowsFromNext(joins: seq<Join>, w: nat, c: nat)
    requires w < c
    ensures joins + WindowsFrom(w, c) == (joins + WindowJoins(w, SAMPLES)) + WindowsFrom(w + 1, c)
  {
  }

  lemma WindowsFromDone(joins: seq<Join>, c: nat)
    ensures joins + WindowsFrom(c, c) == joins
  {
  }

  /** Drawing the joins of one window after the joins before it plots the
      pixels of both runs, in order. */
  lemma SplinePlotsAppend(buffer: seq<Byte>, size: Point, sample: Sampler, color: Color, joins: seq<Join>, more: seq<Join>)
    requires CanvasFits(size)
    ensures PlotClipped(PlotClipped(buffer, size, SplinePoints(sample, joins), color), size, SplinePoints(sample, more), color)
         == PlotClipped(buffer, size, SplinePoints(sample, joins + more), color)
  {
    SplinePointsAppend(sample, joins, more);
    PlotClippedAppend(buffer, size, SplinePoints(sample, joins), SplinePoints(sample, more), color);
  }

  /** draw_uniform_cubic_b_spline: nothing below four control points;
      otherwise one window after another, the last position of a window
      carried into the next. */
  method DrawSpline(buffer: seq<Byte>, size: Point, points: seq<Point>, sample: Sampler, color: Color)
    returns (r: seq<Byte>, joins: seq<Join>)
    requires CanvasFits(size)
    requires SamplesFit(|points|, sample)
    ensures joins == SplineJoins(|points|)
    ensures r == PlotClipped(buffer, size, SplinePoints(sample, joins), color)
    ensures |points| < 4 ==> r == buffer
  {
    r, joins := buffer, [];
    if |points| < 4 {
      return;
    }
    var windows := |points| - 3;
    ghost var all := SplineJoins(|points|);
    var prev := Point(0, 0);
    var i := 0;
    while i < windows
      invariant i <= windows
      invariant joins + WindowsFrom(i, windows) == all
      invariant r == PlotClipped(buffer, size, SplinePoints(sample, joins), color)
    {
      WindowFits(|points|, sample, i);
      var r', wj, last := DrawWindow(r, size, sample, color, i, prev);
      WindowsFromNext(joins, i, windows);
      SplinePlotsAppend(buffer, size, sample, color, joins, wj);
      r, joins, prev := r', joins + wj, last;
      i := i + 1;
    }
    WindowsFromDone(joins, windows);
  }
}
